=== FILE: README.md ===
# AI_gen_image core, modelled in Dafny

AI_gen_image is a desktop application: a user generates images from text prompts through OpenAI, Stability or Gemini, edits them, and keeps a history of them. Most of it is Tk widgets and HTTP plumbing. This project models the six parts that carry rules of their own, and proves what those rules guarantee.

- **Right-angle raster geometry** (`image_editor.dfy`, module `ImageEditor`). An image is a rectangular grid of 32-bit pixels.
  - Crop clamps its box and returns the sub-grid, or the input unchanged when the clamped box is empty.
  - Rotation normalises the angle with Python's floor modulo. Its 90/180/270 branches are transposes.
  - Horizontal mirror and vertical flip.
- **Undo/redo history of the edit tab** (`edit_tab.dfy`, module `EditTab`).
  - The functions `Loaded`, `Pushed`, `Undone` and `Redone` state what each handler does to the triple (snapshots, index, current image).
  - The class `EditSession` updates the fields in place, and its methods are proved to follow those functions.
- **Generation client** (`api_client.dfy`, module `ApiClient`).
  - Provider dispatch and the retry loop with exponential backoff. Adapter calls and sleeps are recorded in a ghost log.
  - The Gemini size choice and the nested scan of the Gemini response.
  - The file name `save_image` derives.
- **Image history table** (`db.dfy`, module `Db`). The SQLite table is a sequence of rows plus the AUTOINCREMENT counter.
  - `ORDER BY created_at DESC` is a stable insertion sort.
  - `LIMIT` keeps a prefix.
  - `LIKE` is a recursive pattern matcher.
- **Configuration** (`settings.dfy`, module `Settings`).
  - The JSON file is a value: missing, unreadable, or holding a map.
  - `load_config`, `get_config` and `save_setting` act on it. The module-level settings that mirror it are fields of `Store`.
- **Generate tab rules** (`generate_tab.dfy`, module `GenerateTab`): the size options per provider, the checks made before a request goes out, and the output file name.
  - The generate-tab flow is modelled with the corrected fallback list ["512x512"] (see "## Findings"). Only `SizeOptionsAsWritten`, `FallbackOptionAsWrittenUnparsable` and `FallbackSelectionAsWrittenRejected` keep the list as written, "(512, 512)x(512, 512)".

Shared pieces:
- `wrappers.dfy` holds `Option` and `Result`.
- `text.dfy` holds the string functions of Python the code relies on: `str.lower`, `str.strip`, `str.isalnum`, `str.split`, `int()`, `str()` of an integer, slicing, and `str.replace` of one character.

## Model

| member | source | states |
|---|---|---|
| ImageEditor.Clamp | AI_gen_image-master1/AI_gen_image-master/core/image_editor.py:28-34 | the clamped box lies within the image, each edge only moves inward, and a box already inside the image is kept as it is |
| ImageEditor.SubImage | AI_gen_image-master1/AI_gen_image-master/core/image_editor.py:40 | the result is (right-left)×(bottom-top) and pixel (i, j) is source pixel (top+i, left+j) |
| ImageEditor.Crop | AI_gen_image-master1/AI_gen_image-master/core/image_editor.py:24-40 | the result is always a well-formed image |
| ImageEditor.CropValidBox | AI_gen_image-master1/AI_gen_image-master/core/image_editor.py:24-40 | for a box inside the image with left<right and top<bottom the result has the box's size and pixels |
| ImageEditor.CropClamps | AI_gen_image-master1/AI_gen_image-master/core/image_editor.py:28-34 | cropping with any box equals cropping with the clamped box |
| ImageEditor.CropDegenerate | AI_gen_image-master1/AI_gen_image-master/core/image_editor.py:36-38 | when the clamped box is empty the input image is returned unchanged |
| ImageEditor.CropSameSizeIsIdentity | AI_gen_image-master1/AI_gen_image-master/core/image_editor.py:24-40 | the crop keeps the image's size if and only if it returns the image unchanged |
| ImageEditor.CropOfCrop | AI_gen_image-master1/AI_gen_image-master/core/image_editor.py:24-40 | cropping a crop with a box inside it is one crop with the offset box |
| ImageEditor.Rotate90 | AI_gen_image-master1/AI_gen_image-master/core/image_editor.py:63-64 | a quarter turn gives a well-formed image with width and height swapped |
| ImageEditor.Rotate180 | AI_gen_image-master1/AI_gen_image-master/core/image_editor.py:65-66 | a half turn gives a well-formed image of the same size |
| ImageEditor.Rotate270 | AI_gen_image-master1/AI_gen_image-master/core/image_editor.py:67-68 | a quarter turn the other way gives a well-formed image with width and height swapped |
| ImageEditor.Rotate | AI_gen_image-master1/AI_gen_image-master/core/image_editor.py:46-74 | dispatches on angle % 360: 90 and 270 give a well-formed image with width and height swapped, 180 one of the same size, any other angle goes to `resample`; see RotateNormalises, RotateDimensions and RotateLossless |
| ImageEditor.RotateNormalises | AI_gen_image-master1/AI_gen_image-master/core/image_editor.py:60-68 | the branch is chosen on the angle's floor remainder by 360, so -90 acts as 270 and 450 as 90 |
| ImageEditor.RotateDimensions | AI_gen_image-master1/AI_gen_image-master/core/image_editor.py:63-68 | 90 and 270 swap width and height; 180 keeps both |
| ImageEditor.Rotate90Then270 | AI_gen_image-master1/AI_gen_image-master/core/image_editor.py:63-68 | a quarter turn one way and then the other gives back the original grid |
| ImageEditor.Rotate270Then90 | AI_gen_image-master1/AI_gen_image-master/core/image_editor.py:63-68 | the same in the other order |
| ImageEditor.Rotate180Twice | AI_gen_image-master1/AI_gen_image-master/core/image_editor.py:65-66 | two half turns give back the original grid |
| ImageEditor.Rotate90Twice | AI_gen_image-master1/AI_gen_image-master/core/image_editor.py:63-66 | two quarter turns make a half turn |
| ImageEditor.RotateLossless | AI_gen_image-master1/AI_gen_image-master/core/image_editor.py:59-68 | rotating by a right angle and then by its negation gives back the original grid |
| ImageEditor.Mirror | AI_gen_image-master1/AI_gen_image-master/core/image_editor.py:77-91 | the result is a well-formed image of the same size |
| ImageEditor.Flip | AI_gen_image-master1/AI_gen_image-master/core/image_editor.py:94-108 | the result is a well-formed image of the same size |
| ImageEditor.MirrorTwice | AI_gen_image-master1/AI_gen_image-master/core/image_editor.py:77-91 | mirroring twice gives back the original grid |
| ImageEditor.FlipTwice | AI_gen_image-master1/AI_gen_image-master/core/image_editor.py:94-108 | flipping twice gives back the original grid |
| ImageEditor.MirrorReversesRows | AI_gen_image-master1/AI_gen_image-master/core/image_editor.py:77-91 | mirroring reverses every row: left and right swap |
| ImageEditor.FlipReversesRows | AI_gen_image-master1/AI_gen_image-master/core/image_editor.py:94-108 | flipping reverses the order of the rows: top and bottom swap |
| ImageEditor.Rotate90Columns | AI_gen_image-master1/AI_gen_image-master/core/image_editor.py:63-64 | counter-clockwise: row y of the result is column width-1-y of the input, read top to bottom |
| ImageEditor.Rotate270Columns | AI_gen_image-master1/AI_gen_image-master/core/image_editor.py:67-68 | clockwise: row y of the result is column y of the input, read bottom to top |
| ImageEditor.MirrorFlipIsRotate180 | AI_gen_image-master1/AI_gen_image-master/core/image_editor.py:77-108 | a mirror followed by a flip is a half turn |
| EditTab.Loaded | AI_gen_image-master1/AI_gen_image-master/ui/edit_tab.py:251-256 | the reset after a load is a consistent history showing the loaded image; LoadedSpec gives it in full |
| EditTab.Pushed | AI_gen_image-master1/AI_gen_image-master/ui/edit_tab.py:541-552 | pushing keeps the history consistent and shows the new image; PushedSpec gives the truncation and the new index |
| EditTab.Undone | AI_gen_image-master1/AI_gen_image-master/ui/edit_tab.py:557-561 | undo keeps the history consistent and the snapshots unchanged; UndoEnabledIffEffective and RedoAfterUndo give its effect |
| EditTab.Redone | AI_gen_image-master1/AI_gen_image-master/ui/edit_tab.py:567-571 | redo keeps the history consistent and the snapshots unchanged; RedoEnabledIffEffective and UndoAfterRedo give its effect |
| EditTab.LoadedSpec | AI_gen_image-master1/AI_gen_image-master/ui/edit_tab.py:251-256 | a load leaves exactly one snapshot, index 0, that snapshot shown, and both buttons disabled |
| EditTab.PushedSpec | AI_gen_image-master1/AI_gen_image-master/ui/edit_tab.py:541-552 | adding keeps history[0..index], appends the image, points the index at it, shows it, disables Redo and enables Undo once loaded |
| EditTab.UndoRedoPreserve | AI_gen_image-master1/AI_gen_image-master/ui/edit_tab.py:557-575 | undo and redo keep index and current image consistent and never change the snapshots |
| EditTab.UndoEnabledIffEffective | AI_gen_image-master1/AI_gen_image-master/ui/edit_tab.py:557-561 | the Undo button's rule (index > 0, line 326) holds exactly when undo changes the state |
| EditTab.RedoEnabledIffEffective | AI_gen_image-master1/AI_gen_image-master/ui/edit_tab.py:567-571 | the Redo button's rule (index < len-1, line 327) holds exactly when redo changes the state |
| EditTab.RedoAfterUndo | AI_gen_image-master1/AI_gen_image-master/ui/edit_tab.py:557-575 | an effective undo followed by redo restores the state |
| EditTab.UndoAfterRedo | AI_gen_image-master1/AI_gen_image-master/ui/edit_tab.py:557-575 | an effective redo followed by undo restores the state |
| EditTab.UndoAfterPush | AI_gen_image-master1/AI_gen_image-master/ui/edit_tab.py:541-561 | undoing a fresh edit shows again the image shown before it |
| EditTab.BeforeLoad | AI_gen_image-master1/AI_gen_image-master/ui/edit_tab.py:31-32 | before any load, undo and redo do nothing and both buttons are disabled |
| EditTab.EditsAfterLoad | AI_gen_image-master1/AI_gen_image-master/ui/edit_tab.py:541-552 | a load followed by edits leaves a consistent history |
| EditTab.UndoTimes | AI_gen_image-master1/AI_gen_image-master/ui/edit_tab.py:557-561 | pressing Undo any number of times leaves a consistent history |
| EditTab.EditsAfterLoadSpec | AI_gen_image-master1/AI_gen_image-master/ui/edit_tab.py:541-552 | after a load and n edits the snapshots are the loaded image then the edits, and the index is n |
| EditTab.UndoTimesSpec | AI_gen_image-master1/AI_gen_image-master/ui/edit_tab.py:557-561 | k undos move the index back k places but not below 0, keeping the snapshots |
| EditTab.UndoAfterEdits | AI_gen_image-master1/AI_gen_image-master/ui/edit_tab.py:541-561 | after n edits, k undos show the image from k edits earlier, or the loaded one |
| EditTab.EditSession.constructor | AI_gen_image-master1/AI_gen_image-master/ui/edit_tab.py:31-32 | a new tab has no snapshots, index -1 and no image |
| EditTab.EditSession.LoadImage | AI_gen_image-master1/AI_gen_image-master/ui/edit_tab.py:233-256 | a cancelled dialog changes nothing; a picked image resets the history to it |
| EditTab.EditSession.AddToHistory | AI_gen_image-master1/AI_gen_image-master/ui/edit_tab.py:541-552 | the new state is the pushed state |
| EditTab.EditSession.Undo | AI_gen_image-master1/AI_gen_image-master/ui/edit_tab.py:557-561 | the new state is the undone state |
| EditTab.EditSession.Redo | AI_gen_image-master1/AI_gen_image-master/ui/edit_tab.py:567-571 | the new state is the redone state |
| EditTab.EditSession.ApplyCrop | AI_gen_image-master1/AI_gen_image-master/ui/edit_tab.py:445-460 | the crop is pushed only when it changed the image's size; otherwise nothing changes |
| EditTab.EditSession.RotateImage | AI_gen_image-master1/AI_gen_image-master/ui/edit_tab.py:478-497 | with an image shown, the rotated image is pushed; without one nothing changes |
| EditTab.EditSession.FlipHorizontal | AI_gen_image-master1/AI_gen_image-master/ui/edit_tab.py:499-518 | with an image shown, its mirror image is pushed; without one nothing changes |
| EditTab.EditSession.FlipVertical | AI_gen_image-master1/AI_gen_image-master/ui/edit_tab.py:520-539 | with an image shown, its flipped image is pushed; without one nothing changes |
| EditTab.CropNotPushedLosesNothing | AI_gen_image-master1/AI_gen_image-master/ui/edit_tab.py:451-460 | a crop that is not pushed is one that would have returned the image unchanged |
| ApiClient.SnapGeminiSize | AI_gen_image-master1/AI_gen_image-master/core/api_client.py:154-168 | the chosen key is one of the three supported sizes and has the requested orientation: square, portrait or landscape |
| ApiClient.SnapGeminiSizeFixesSupported | AI_gen_image-master1/AI_gen_image-master/core/api_client.py:154-168 | snapping a supported size gives that size back |
| ApiClient.AdapterFor | AI_gen_image-master1/AI_gen_image-master/core/api_client.py:39-47 | an adapter exists exactly for "openai", "stability" and "gemini" |
| ApiClient.BuildRequest | AI_gen_image-master1/AI_gen_image-master/core/api_client.py:62-186 | OpenAI sends the prompt and the "WxH" size string; Stability sends the prompt, width and height, and the negative prompt, unchanged, exactly when it is given and non-empty; Gemini asks for the size key SnapGeminiSize picks (one of its supported sizes) with the text "Generate an image based on this description: " followed by the prompt |
| ApiClient.Retries | AI_gen_image-master1/AI_gen_image-master/core/api_client.py:37-58 | from retry count k on, the trace has at most two events per remaining attempt, and a success ends with the call that returned it; see RetriesShape, FirstSuccessWins and AllAttemptsFail |
| ApiClient.Generation | AI_gen_image-master1/AI_gen_image-master/core/api_client.py:28-60 | an image, or any call or sleep, needs an API key and a known provider; see NoApiKey, UnknownProvider and GenerationBudget |
| ApiClient.Pow2 | AI_gen_image-master1/AI_gen_image-master/core/api_client.py:52 | 2^k is at least 1 |
| ApiClient.CallCountAppend | AI_gen_image-master1/AI_gen_image-master/core/api_client.py:39-57 | the number of adapter calls in a joined trace is the sum of the parts |
| ApiClient.SleepsAppend | AI_gen_image-master1/AI_gen_image-master/core/api_client.py:50-57 | the sleeps of a joined trace are the sleeps of the parts in order |
| ApiClient.NoApiKey | AI_gen_image-master1/AI_gen_image-master/core/api_client.py:34-36 | without a key the result is None, with no adapter call and no sleep |
| ApiClient.UnknownProvider | AI_gen_image-master1/AI_gen_image-master/core/api_client.py:47-49 | an unrecognised provider gives None on the first pass, with no call, no retry and no sleep |
| ApiClient.RetriesShape | AI_gen_image-master1/AI_gen_image-master/core/api_client.py:39-57 | from retry count k on, at most 3-k calls are made, all with the same request, and the j-th sleep lasts 2·2^(k+j) seconds |
| ApiClient.GenerationBudget | AI_gen_image-master1/AI_gen_image-master/core/api_client.py:23-57 | at most three adapter calls, each with the request of the provider's adapter, and the k-th sleep lasts 2·2^k seconds |
| ApiClient.FirstSuccessWins | AI_gen_image-master1/AI_gen_image-master/core/api_client.py:39-46 | when attempt k is the first to succeed its image is returned at once, after k failed calls and k sleeps |
| ApiClient.AllAttemptsFail | AI_gen_image-master1/AI_gen_image-master/core/api_client.py:50-60 | when every attempt fails the result is None after three calls and three sleeps of 2, 4 and 8 seconds, 14 in all |
| ApiClient.ScanFrom | AI_gen_image-master1/AI_gen_image-master/core/api_client.py:212-223 | the scan stops at the first part, in candidate-then-part order, that has inline data with an image MIME type or with no MIME type; every part before it is skipped |
| ApiClient.ScanGeminiResponse | AI_gen_image-master1/AI_gen_image-master/core/api_client.py:212-223 | the nested loops return what the scan specification returns |
| ApiClient.GeminiOutcome | AI_gen_image-master1/AI_gen_image-master/core/api_client.py:203-223 | an attempt succeeds exactly when the status is 200, the scan finds an image part, and that part's data is present and decodes; the image is then the decoded data |
| ApiClient.CleanPrompt | AI_gen_image-master1/AI_gen_image-master/core/api_client.py:232 | the cleaned prefix has length min(len(prompt), 30) and each character is the prompt's when alphanumeric, '_' otherwise |
| ApiClient.SavedFilenameSpec | AI_gen_image-master1/AI_gen_image-master/core/api_client.py:232-234 | the name is the cleaned prefix, '_', the timestamp's digits and ".png", and the timestamp reads back from it |
| ApiClient.SavedFilenameDistinct | AI_gen_image-master1/AI_gen_image-master/core/api_client.py:232-234 | saves of one prompt in different seconds get different names |
| ApiClient.APIClient.constructor | AI_gen_image-master1/AI_gen_image-master/core/api_client.py:20-24 | an empty key or provider argument falls back to the configured one, and the provider is lower-cased |
| ApiClient.APIClient.GenerateImage | AI_gen_image-master1/AI_gen_image-master/core/api_client.py:29-60 | the loop returns the image of the retry specification and appends its calls and sleeps to the log |
| Db.Lookup | AI_gen_image-master1/AI_gen_image-master/core/db.py:113-126 | a row is returned only if it has the id, and None exactly when no row has it |
| Db.Without | AI_gen_image-master1/AI_gen_image-master/core/db.py:133 | the rows left are exactly those without the id, and the table is unchanged when no row had it |
| Db.WithoutKeepsOrder | AI_gen_image-master1/AI_gen_image-master/core/db.py:133 | deleting keeps the remaining rows in order, so ids still increase |
| Db.WithoutRemovesOne | AI_gen_image-master1/AI_gen_image-master/core/db.py:133-136 | deleting an id that is present removes exactly one row |
| Db.InsertByAge | AI_gen_image-master1/AI_gen_image-master/core/db.py:83 | inserting into a newest-first sequence keeps it newest-first and adds exactly that row |
| Db.NewestFirstOrder | AI_gen_image-master1/AI_gen_image-master/core/db.py:83 | the result is ordered by created_at, newest first, and is a permutation of the rows |
| Db.Limit | AI_gen_image-master1/AI_gen_image-master/core/db.py:84 | a negative limit keeps every row; otherwise min(len, limit) rows are kept, a prefix |
| Db.Like | AI_gen_image-master1/AI_gen_image-master/core/db.py:102 | a pattern without '%' matches only strings of its own length, and the empty pattern matches only the empty string; see LikeAnything, LikePrefix and LikeIsSubstring |
| Db.LikeAnything | AI_gen_image-master1/AI_gen_image-master/core/db.py:102 | '%' matches every string |
| Db.LikePrefix | AI_gen_image-master1/AI_gen_image-master/core/db.py:102 | for a term without wildcards, term + '%' matches exactly the strings that start with the term, ignoring ASCII case |
| Db.LikeIsSubstring | AI_gen_image-master1/AI_gen_image-master/core/db.py:102-105 | for a term without wildcards, '%term%' matches exactly the strings that contain the term, ignoring ASCII case |
| Db.Matching | AI_gen_image-master1/AI_gen_image-master/core/db.py:102-105 | the rows kept are exactly those whose prompt matches '%term%' |
| Db.EmptyTermMatchesAll | AI_gen_image-master1/AI_gen_image-master/core/db.py:102-105 | searching for the empty term keeps every row |
| Db.PrefixHoldsNewest | AI_gen_image-master1/AI_gen_image-master/core/db.py:83-84 | no row after the limit is newer than a row returned |
| Db.TopRows | AI_gen_image-master1/AI_gen_image-master/core/db.py:81-85 | the listed rows are ordered, drawn from the table, and none left out is newer than one returned |
| Db.Database.constructor | AI_gen_image-master1/AI_gen_image-master/core/db.py:14-44 | a new table is empty with the counter at 1 |
| Db.Database.AddImage | AI_gen_image-master1/AI_gen_image-master/core/db.py:46-73 | exactly one row is appended with a fresh id larger than every earlier one; the provider defaults to "unknown"; the counter moves on; the new row can be looked up |
| Db.Database.GetAllImages | AI_gen_image-master1/AI_gen_image-master/core/db.py:75-91 | at most limit rows, newest first, from the table, none left out newer than one returned; the table is not changed |
| Db.Database.SearchImages | AI_gen_image-master1/AI_gen_image-master/core/db.py:93-111 | at most limit rows, each matching '%term%', newest first, none left out that matches and is newer; the table is not changed |
| Db.Database.GetImage | AI_gen_image-master1/AI_gen_image-master/core/db.py:113-126 | the row with the id, or None exactly when no row has it; the table is not changed |
| Db.Database.DeleteImage | AI_gen_image-master1/AI_gen_image-master/core/db.py:128-142 | returns true exactly when a row had the id; that row is gone, the others stay in order, and the counter is kept |
| Db.InsertThenGet | AI_gen_image-master1/AI_gen_image-master/core/db.py:113-126 | after an insert with a fresh id, get_image of that id returns the inserted row |
| Db.NewestInsertListedFirst | AI_gen_image-master1/AI_gen_image-master/core/db.py:52-91 | a row inserted later than every other row is what get_all_images(1) returns |
| Settings.LoadedConfig | AI_gen_image-master1/AI_gen_image-master/core/settings.py:53-67 | a readable file gives its map; a missing or unreadable one gives DEFAULT_CONFIG |
| Settings.FileAfterLoad | AI_gen_image-master1/AI_gen_image-master/core/settings.py:56-64 | loading changes the file only by creating a missing one with the defaults |
| Settings.Stored | AI_gen_image-master1/AI_gen_image-master/core/settings.py:105-109 | under "dark_mode" or "darkmode" the stored value is bool(value); under any other key it is the value itself |
| Settings.FileAfterSave | AI_gen_image-master1/AI_gen_image-master/core/settings.py:98-129 | a successful save leaves a readable file; a failed one leaves the file as loading left it |
| Settings.Lookup | AI_gen_image-master1/AI_gen_image-master/core/settings.py:83-95 | the value is the default or one stored in the configuration, and it is the default when the lower-cased key is absent; see KeysIgnoreCase |
| Settings.DefaultsWhenMissing | AI_gen_image-master1/AI_gen_image-master/core/settings.py:37-41 | with no file, dark_mode is true, api_provider is "openai", api_key is "", and any other key gives the default |
| Settings.LoadIsStable | AI_gen_image-master1/AI_gen_image-master/core/settings.py:53-67 | the defaults written for a missing file read back as the defaults |
| Settings.KeysIgnoreCase | AI_gen_image-master1/AI_gen_image-master/core/settings.py:88-92 | keys that agree in lower case find the same entry |
| Settings.SaveThenGet | AI_gen_image-master1/AI_gen_image-master/core/settings.py:98-129 | after a successful save, get_config of the key in any case returns the stored value |
| Settings.SaveKeepsOtherKeys | AI_gen_image-master1/AI_gen_image-master/core/settings.py:100-109 | a save leaves every other key as it was loaded |
| Settings.SaveOverUnreadableFile | AI_gen_image-master1/AI_gen_image-master/core/settings.py:100-122 | saving over an unreadable file replaces it with the defaults plus the one setting |
| Settings.SaveIdempotent | AI_gen_image-master1/AI_gen_image-master/core/settings.py:98-129 | saving the same setting twice leaves the file as saving it once |
| Settings.Store.constructor | AI_gen_image-master1/AI_gen_image-master/core/settings.py:132-145 | APP_CONFIG is loaded once and the three settings are read from it with their defaults |
| Settings.Store.LoadConfig | AI_gen_image-master1/AI_gen_image-master/core/settings.py:53-67 | returns the loaded map and creates a missing file when it can |
| Settings.Store.GetConfig | AI_gen_image-master1/AI_gen_image-master/core/settings.py:83-95 | reloads the file and returns the value under the lower-cased key, or the default |
| Settings.Store.SaveSetting | AI_gen_image-master1/AI_gen_image-master/core/settings.py:98-129 | the file is the saved file, only the matching module-level setting changes, even when the write then fails, and the result is the write's success |
| Settings.Store.SaveConfig | AI_gen_image-master1/AI_gen_image-master/core/settings.py:70-80 | a successful write replaces the file's contents; a failed one leaves it; the result says which |
| GenerateTab.PairString | AI_gen_image-master1/AI_gen_image-master/ui/generate_tab.py:178 | Python's text of a pair begins with '(' |
| GenerateTab.SizeOptionsAsWritten | AI_gen_image-master1/AI_gen_image-master/ui/generate_tab.py:162-178 | as written, the fallback list is the single option built from the text of the whole (512, 512) pair on each side of the 'x' |
| GenerateTab.SizeOptions | AI_gen_image-master1/AI_gen_image-master/ui/generate_tab.py:162-178 | every provider is offered at least one option; corrected fallback (see ## Findings) |
| GenerateTab.ParseSize | AI_gen_image-master1/AI_gen_image-master/ui/generate_tab.py:204 | a size parses only when the string splits on 'x' into exactly two parts |
| GenerateTab.ParseSizeString | AI_gen_image-master1/AI_gen_image-master/ui/generate_tab.py:204 | formatting a size as "WxH" and parsing it gives the size back |
| GenerateTab.ParseSizeNeedsLeadingDigit | AI_gen_image-master1/AI_gen_image-master/ui/generate_tab.py:204 | in the model, where `int()` takes plain digit strings only, a string that does not start with a digit does not parse; Python's `int()` also accepts leading whitespace or a sign |
| GenerateTab.OpenAIOptionsSpellSizes | AI_gen_image-master1/AI_gen_image-master/ui/generate_tab.py:164-165 | the OpenAI options are 256x256, 512x512 and 1024x1024 |
| GenerateTab.StabilityOptionsSpellSizes | AI_gen_image-master1/AI_gen_image-master/ui/generate_tab.py:166-176 | the Stability options spell the eight listed sizes |
| GenerateTab.SizeOptionsSpellSizes | AI_gen_image-master1/AI_gen_image-master/ui/generate_tab.py:162-178 | each option spells its size; with the corrected fallback (see ## Findings), any other provider is offered ["512x512"], where line 178 as written offers "(512, 512)x(512, 512)" |
| GenerateTab.SizeOptionsRoundTrip | AI_gen_image-master1/AI_gen_image-master/ui/generate_tab.py:204 | every offered option parses, and formatting the parsed size gives the option back; corrected fallback (see ## Findings) |
| GenerateTab.FallbackOptionAsWrittenUnparsable | AI_gen_image-master1/AI_gen_image-master/ui/generate_tab.py:162-178 | as written, the only option offered to another provider cannot be parsed |
| GenerateTab.Prepare | AI_gen_image-master1/AI_gen_image-master/ui/generate_tab.py:186-231 | rejected as an empty prompt exactly when the prompt is blank; accepted only with the stripped prompt and an offered size; the negative prompt is None exactly when blank; corrected fallback (see ## Findings) |
| GenerateTab.PrepareAcceptsOfferedOption | AI_gen_image-master1/AI_gen_image-master/ui/generate_tab.py:186-231 | any offered option with a non-blank prompt is accepted with the size it spells; corrected fallback (see ## Findings) |
| GenerateTab.DefaultSelectionAccepted | AI_gen_image-master1/AI_gen_image-master/ui/generate_tab.py:100 | the default selection, the first option, is accepted for every provider; corrected fallback (see ## Findings) |
| GenerateTab.FallbackSelectionAsWrittenRejected | AI_gen_image-master1/AI_gen_image-master/ui/generate_tab.py:186-204 | as written, a generation for another provider always stops at the size parse |
| GenerateTab.OutputFilename | AI_gen_image-master1/AI_gen_image-master/ui/generate_tab.py:250 | the name has the length of the cut prompt plus the size and "_" and ".png", and it ends in ".png"; see OutputFilenameSpec |
| GenerateTab.OutputFilenameSpec | AI_gen_image-master1/AI_gen_image-master/ui/generate_tab.py:250 | the name is the first 50 characters of the prompt with spaces as '_', then "_WxH.png" |
| GenerateTab.OutputFilenameCollides | AI_gen_image-master1/AI_gen_image-master/ui/generate_tab.py:250 | prompts that agree on their first 50 characters get the same name for the same size |
| GenerateTab.OutputFilenameSizeDistinct | AI_gen_image-master1/AI_gen_image-master/ui/generate_tab.py:250 | the same prompt at two different sizes gets two different names |
| GenerateTab.GenerateImage | AI_gen_image-master1/AI_gen_image-master/ui/generate_tab.py:224-250 | a size that is not offered is refused before the client is called; otherwise the client's result decides, and an image is named by the output file name; corrected fallback (see ## Findings) |
| Text.LowerIdempotent | AI_gen_image-master1/AI_gen_image-master/core/api_client.py:22 | lower-casing an already lower-cased provider name changes nothing |
| Text.TrimStart | AI_gen_image-master1/AI_gen_image-master/ui/generate_tab.py:188 | removes exactly the leading whitespace |
| Text.TrimEnd | AI_gen_image-master1/AI_gen_image-master/ui/generate_tab.py:188 | removes exactly the trailing whitespace |
| Text.StripEmptyIffAllSpace | AI_gen_image-master1/AI_gen_image-master/ui/generate_tab.py:188-189 | strip gives the empty string exactly when the text is all whitespace |
| Text.NatToString | AI_gen_image-master1/AI_gen_image-master/core/api_client.py:234 | str(n) is a non-empty string of digits without a leading zero |
| Text.ParseNatToString | AI_gen_image-master1/AI_gen_image-master/ui/generate_tab.py:204 | int(str(n)) == n |
| Text.NatToStringOfParse | AI_gen_image-master1/AI_gen_image-master/ui/generate_tab.py:204 | a canonical digit string is str(int(s)) |
| Text.SplitOnOnce | AI_gen_image-master1/AI_gen_image-master/ui/generate_tab.py:204 | splitting "a x b" on 'x', with no 'x' in a or b, gives [a, b] |

## Left out

- Pixels are opaque 32-bit values. Colour modes, image formats, file decoding and PNG writes are not modelled.
- Rotation by an angle that is not a right angle goes through PIL's bicubic resampling. It is a parameter `resample` of `Rotate`, not a model. Resizing (Lanczos) and `adjust_brightness` are not modelled either; the latter calls a function Pillow does not provide, so it always returns its input.
- The edit tab's canvas display is not modelled. The conversion of the crop rectangle from canvas to image coordinates uses float scale factors, so `ApplyCrop` takes the box in image coordinates. The edit tab's save dialog and its uuid/timestamp file names are not modelled.
- The HTTP requests, JSON bodies, base64 decoding and `Image.open` are not modelled. Each adapter call is a parameter `send(request, attempt)` returning success with an image or failure; the Gemini decoding is a parameter `decode`. `time.sleep` is recorded as an event in the ghost log, and no time passes.
- APIClient.GenerateImage: the client's `provider` is fixed at construction. The main window also assigns `api_client.provider` directly when settings change, and that assignment is not modelled.
- The worker thread of the generate tab, the `frame.after` calls and every widget update are not modelled. `GenerateImage` in `GenerateTab` names the file but does not save it, and `save_dir` is not modelled.
- SQLite is not modelled: connections, commits, schema creation, and type affinity of the columns.
  - `created_at` is a natural number of seconds supplied by the caller, standing for `datetime.now()`; the stored text `%Y-%m-%d %H:%M:%S` sorts the same way.
  - Rows with equal `created_at` are listed in insertion order. SQLite does not promise an order for ties, and this is the order its sorter gives for a table scanned by rowid.
- Db.Database.constructor: models opening a new `history.db`, with an empty table and the AUTOINCREMENT counter at 1. `CREATE TABLE IF NOT EXISTS` (db.py:14-44) also opens an existing file, keeping its rows and its counter. The model does not start from such a file.
- Db.Database.AddImage: `provider` `None` stands for the omitted argument. Passing Python `None` explicitly, which the NOT NULL column rejects, is not modelled.
- Db.LikeIsSubstring: the substring reading of `LIKE '%term%'` is proved only for terms without `%` or `_`. The code does not escape wildcards; `Like` itself models them.
- Text.Lower, Text.IsAlnum: only ASCII letters are folded and only ASCII letters and digits count as alphanumeric. Python's Unicode case mapping and `isalnum` are wider. `Text.IsSpace` follows Python's full set of whitespace code points.
- Text.ParseNat: `int()` also accepts surrounding whitespace, a sign and underscores between digits. Only plain digit strings are modelled, which is all the size options contain.
- The JSON file I/O of `core/settings.py` is not modelled: directory creation, PyInstaller path detection, and a top-level JSON value that is not an object. The file is a `ConfigFile` value, and whether a write succeeds is a parameter.
- Settings.Store: `APP_CONFIG` is loaded once, and the model never refreshes it from `save_setting`. That holds in the source only when the import-time load read a real file. On a missing file (settings.py:61-64) and on an unreadable one (settings.py:65-67), `load_config` returns the `DEFAULT_CONFIG` object itself. A later `save_setting` then takes that same object from `load_config` and writes the key into it. This mutates the defaults in memory, and also `APP_CONFIG` whenever the import-time load (settings.py:132) took one of those two branches. That aliasing is not modelled: the defaults stay constant, and `APP_CONFIG` changes only at construction.
- `save_to_env`, `save_env_variable` and `initialize_db` in `core/settings.py` are aliases or duplicates of modelled operations and are not modelled separately.
- Logging is not modelled anywhere.

## Findings

| source | as written | input that shows it | evidently intended | confidence | as-written member | corrected member |
|---|---|---|---|---|---|---|
| AI_gen_image-master1/AI_gen_image-master/ui/generate_tab.py:178 | the fallback option is `f"{DEFAULT_IMAGE_SIZE}x{DEFAULT_IMAGE_SIZE}"` with the tuple (512, 512), i.e. "(512, 512)x(512, 512)"; `int()` of "(512, 512)" fails at line 204, so every generation for "gemini" (or any provider other than openai and stability) stops before the client is called | provider "gemini", prompt "a cat", default selection | the fallback option "512x512", built from the tuple's width and height | high, by proof; not executed | GenerateTab.FallbackSelectionAsWrittenRejected | GenerateTab.DefaultSelectionAccepted |

The retry loop pauses after every failure, the third included: 2, 4 and 8 seconds, and only then returns `None` (`ApiClient.AllAttemptsFail`).

=== FILE: api_client.dfy ===
/** `APIClient` (core/api_client.py): provider dispatch, the retry loop with
    exponential backoff, the Gemini size snapping and response scan, and the
    file name `save_image` derives. The HTTP calls themselves are not modelled:
    `send(request, k)` is the outcome of the adapter call on attempt `k`, and
    `time.sleep` appends a `Slept` event to the client's ghost log. */
module ApiClient {
  import opened Wrappers
  import opened Text
  import opened ImageEditor

  /** `self.max_retries`. */
  const MaxRetries: nat := 3

  /** `self.retry_delay`, in seconds. */
  const RetryDelay: nat := 2

  /** The three provider adapters `_call_openai`, `_call_stability`, `_call_gemini`. */
  datatype Adapter = OpenAI | Stability | Gemini

  /** The `if`/`elif` chain of `generate_image` on the (lower-cased) provider. */
  function AdapterFor(provider: string): (r: Option<Adapter>)
    ensures r.Some? <==> provider in {"openai", "stability", "gemini"}
  {
    if provider == "openai" then Some(OpenAI)
    else if provider == "stability" then Some(Stability)
    else if provider == "gemini" then Some(Gemini)
    else None
  }

  /** What each adapter sends: the parts of the JSON payload that depend on
      the arguments. For Gemini, `sizeKey` is the size `_call_gemini` picks
      and logs; the payload it posts does not carry a size. */
  datatype Request =
    | OpenAIRequest(prompt: string, size: string)
    | StabilityRequest(prompt: string, width: nat, height: nat, negative: Option<string>)
    | GeminiRequest(text: string, sizeKey: string)

  /** The Gemini sizes `_call_gemini` can ask for. */
  const GeminiSizes: map<string, (nat, nat)> :=
    map["1024x1024" := (1024, 1024), "1024x1792" := (1024, 1792), "1792x1024" := (1792, 1024)]

  /** `_call_gemini`'s size choice: square, portrait or landscape. The chosen
      key is always one of `GeminiSizes` and has the requested orientation. */
  function SnapGeminiSize(width: nat, height: nat): (key: string)
    ensures key in GeminiSizes
    ensures width == height <==> GeminiSizes[key].0 == GeminiSizes[key].1
    ensures width < height <==> GeminiSizes[key].0 < GeminiSizes[key].1
  {
    if width == height then "1024x1024"
    else if width < height then "1024x1792"
    else "1792x1024"
  }

  /** Snapping a size Gemini supports gives that size back. */
  lemma SnapGeminiSizeFixesSupported(key: string)
    requires key in GeminiSizes
    ensures SnapGeminiSize(GeminiSizes[key].0, GeminiSizes[key].1) == key
  {
  }

  /** The request each adapter builds. Stability adds the negative prompt
      only when it is truthy (present and non-empty). */
  function BuildRequest(adapter: Adapter, prompt: string, width: nat, height: nat, negative: Option<string>): (r: Request)
    ensures adapter == OpenAI ==>
      r.OpenAIRequest? && r.prompt == prompt && r.size == SizeString(width, height)
    ensures adapter == Stability ==>
      r.StabilityRequest? && r.prompt == prompt && r.width == width && r.height == height
      && (r.negative.Some? <==> negative.Some? && negative.value != "")
      && (r.negative.Some? ==> r.negative == negative)
    ensures adapter == Gemini ==>
      r.GeminiRequest? && r.sizeKey in GeminiSizes && r.sizeKey == SnapGeminiSize(width, height)
      && r.text == "Generate an image based on this description: " + prompt
  {
    match adapter
    case OpenAI => OpenAIRequest(prompt, SizeString(width, height))
    case Stability =>
      StabilityRequest(prompt, width, height, if negative.Some? && negative.value != "" then negative else None)
    case Gemini =>
      GeminiRequest("Generate an image based on this description: " + prompt, SnapGeminiSize(width, height))
  }

  /** What one adapter call does: return an image, or raise (any exception). */
  datatype Outcome = Success(image: Image) | Failure

  /** The observable side effects of `generate_image`: adapter calls and sleeps. */
  datatype Event = Sent(request: Request) | Slept(seconds: nat)

  function Pow2(k: nat): (r: nat)
    ensures r >= 1
  {
    if k == 0 then 1 else 2 * Pow2(k - 1)
  }

  /** The retry loop from the point where `retry_count` equals `retryCount`:
      the image returned and the events that follow. */
  function Retries(req: Request, send: (Request, nat) -> Outcome, retryCount: nat): (r: (Option<Image>, seq<Event>))
    ensures retryCount <= MaxRetries ==> |r.1| <= 2 * (MaxRetries - retryCount)
    ensures r.0.Some? ==> r.1 != [] && r.1[|r.1| - 1] == Sent(req)
    decreases MaxRetries - retryCount
  {
    if retryCount >= MaxRetries then (None, [])
    else
      match send(req, retryCount)
      case Success(img) => (Some(img), [Sent(req)])
      case Failure =>
        var rest := Retries(req, send, retryCount + 1);
        (rest.0, [Sent(req), Slept(RetryDelay * Pow2(retryCount))] + rest.1)
  }

  /** `generate_image` as a whole: no key or an unknown provider give `None`
      at once; otherwise the retry loop runs on the provider's request. */
  function Generation(apiKey: string, provider: string, prompt: string, width: nat, height: nat,
                      negative: Option<string>, send: (Request, nat) -> Outcome): (r: (Option<Image>, seq<Event>))
    ensures r.0.Some? ==> apiKey != "" && AdapterFor(provider).Some?
    ensures r.1 != [] ==> apiKey != "" && AdapterFor(provider).Some?
  {
    if apiKey == "" then (None, [])
    else
      match AdapterFor(provider)
      case None => (None, [])
      case Some(adapter) => Retries(BuildRequest(adapter, prompt, width, height, negative), send, 0)
  }

  /** The number of adapter calls in a trace. */
  function CallCount(t: seq<Event>): nat
  {
    if t == [] then 0 else (if t[0].Sent? then 1 else 0) + CallCount(t[1..])
  }

  /** The sleep durations in a trace, in order. */
  function Sleeps(t: seq<Event>): seq<nat>
  {
    if t == [] then [] else (if t[0].Slept? then [t[0].seconds] else []) + Sleeps(t[1..])
  }

  function Sum(s: seq<nat>): nat
  {
    if s == [] then 0 else s[0] + Sum(s[1..])
  }

  lemma {:induction false} CallCountAppend(a: seq<Event>, b: seq<Event>)
    ensures CallCount(a + b) == CallCount(a) + CallCount(b)
  {
    if a != [] {
      assert (a + b)[1..] == a[1..] + b;
      CallCountAppend(a[1..], b);
    } else {
      assert a + b == b;
    }
  }

  lemma {:induction false} SleepsAppend(a: seq<Event>, b: seq<Event>)
    ensures Sleeps(a + b) == Sleeps(a) + Sleeps(b)
  {
    if a != [] {
      assert (a + b)[1..] == a[1..] + b;
      SleepsAppend(a[1..], b);
    } else {
      assert a + b == b;
    }
  }

  /** No API key: `None`, no adapter call and no sleep. */
  lemma NoApiKey(provider: string, prompt: string, width: nat, height: nat,
                 negative: Option<string>, send: (Request, nat) -> Outcome)
    ensures Generation("", provider, prompt, width, height, negative, send) == (None, [])
  {
  }

  /** An unrecognised provider: `None` on the first pass, no call, no retry, no sleep. */
  lemma UnknownProvider(apiKey: string, provider: string, prompt: string, width: nat, height: nat,
                        negative: Option<string>, send: (Request, nat) -> Outcome)
    requires provider !in {"openai", "stability", "gemini"}
    ensures Generation(apiKey, provider, prompt, width, height, negative, send) == (None, [])
  {
  }

  /** From retry count `k` on, at most `MaxRetries - k` calls are made, every
      call sends the same request, and the sleeps follow the doubling schedule. */
  lemma RetriesShape(req: Request, send: (Request, nat) -> Outcome, k: nat)
    requires k <= MaxRetries
    ensures CallCount(Retries(req, send, k).1) <= MaxRetries - k
    ensures forall e :: e in Retries(req, send, k).1 && e.Sent? ==> e.request == req
    ensures |Sleeps(Retries(req, send, k).1)| <= MaxRetries - k
    ensures forall j :: 0 <= j < |Sleeps(Retries(req, send, k).1)| ==>
      Sleeps(Retries(req, send, k).1)[j] == RetryDelay * Pow2(k + j)
  {
    RetriesCalls(req, send, k);
    RetriesSleeps(req, send, k);
  }

  lemma {:induction false} RetriesCalls(req: Request, send: (Request, nat) -> Outcome, k: nat)
    requires k <= MaxRetries
    ensures CallCount(Retries(req, send, k).1) <= MaxRetries - k
    ensures forall e :: e in Retries(req, send, k).1 && e.Sent? ==> e.request == req
    decreases MaxRetries - k
  {
    if k < MaxRetries && send(req, k).Failure? {
      var rest := Retries(req, send, k + 1);
      var head := [Sent(req), Slept(RetryDelay * Pow2(k))];
      RetriesCalls(req, send, k + 1);
      CallCountAppend(head, rest.1);
      assert CallCount(head) == 1;
    } else if k < MaxRetries {
      assert CallCount([Sent(req)]) == 1;
    }
  }

  lemma {:induction false} RetriesSleeps(req: Request, send: (Request, nat) -> Outcome, k: nat)
    requires k <= MaxRetries
    ensures |Sleeps(Retries(req, send, k).1)| <= MaxRetries - k
    ensures forall j :: 0 <= j < |Sleeps(Retries(req, send, k).1)| ==>
      Sleeps(Retries(req, send, k).1)[j] == RetryDelay * Pow2(k + j)
    decreases MaxRetries - k
  {
    if k < MaxRetries && send(req, k).Failure? {
      var rest := Retries(req, send, k + 1);
      var head := [Sent(req), Slept(RetryDelay * Pow2(k))];
      RetriesSleeps(req, send, k + 1);
      SleepsAppend(head, rest.1);
      assert Sleeps(head) == [RetryDelay * Pow2(k)];
      DoublingStep(k, Sleeps(rest.1));
    } else if k < MaxRetries {
      assert Sleeps([Sent(req)]) == [];
    }
  }

  /** With a key, `generate_image` is the retry loop on the provider's request,
      or nothing at all for an unknown provider. */
  lemma GenerationWithKey(apiKey: string, provider: string, prompt: string, width: nat, height: nat,
                          negative: Option<string>, send: (Request, nat) -> Outcome)
    requires apiKey != ""
    ensures AdapterFor(provider).None? ==> Generation(apiKey, provider, prompt, width, height, negative, send) == (None, [])
    ensures AdapterFor(provider).Some? ==>
      Generation(apiKey, provider, prompt, width, height, negative, send)
        == Retries(BuildRequest(AdapterFor(provider).value, prompt, width, height, negative), send, 0)
  {
  }

  /** A pass of the retry loop that succeeds ends it with the call's image. */
  lemma RetryPassSucceeds(start: seq<Event>, log: seq<Event>, req: Request, send: (Request, nat) -> Outcome, k: nat)
    requires k < MaxRetries && send(req, k).Success?
    requires Retries(req, send, 0).0 == Retries(req, send, k).0
    requires start + Retries(req, send, 0).1 == log + Retries(req, send, k).1
    ensures Retries(req, send, 0).0 == Some(send(req, k).image)
    ensures start + Retries(req, send, 0).1 == log + [Sent(req)]
  {
  }

  /** A pass that fails records the call and the pause and leaves the rest of
      the trace to the next retry count. */
  lemma RetryPassFails(start: seq<Event>, log: seq<Event>, req: Request, send: (Request, nat) -> Outcome, k: nat)
    requires k < MaxRetries && send(req, k).Failure?
    requires Retries(req, send, 0).0 == Retries(req, send, k).0
    requires start + Retries(req, send, 0).1 == log + Retries(req, send, k).1
    ensures Retries(req, send, 0).0 == Retries(req, send, k + 1).0
    ensures start + Retries(req, send, 0).1
      == log + [Sent(req)] + [Slept(RetryDelay * Pow2(k))] + Retries(req, send, k + 1).1
  {
    var rest := Retries(req, send, k + 1).1;
    assert Retries(req, send, k).1 == [Sent(req), Slept(RetryDelay * Pow2(k))] + rest;
    assert log + ([Sent(req), Slept(RetryDelay * Pow2(k))] + rest)
      == log + [Sent(req)] + [Slept(RetryDelay * Pow2(k))] + rest;
  }

  /** One more pause in front of a doubling schedule that starts one step later. */
  lemma DoublingStep(k: nat, later: seq<nat>)
    requires forall j :: 0 <= j < |later| ==> later[j] == RetryDelay * Pow2(k + 1 + j)
    ensures forall j :: 0 <= j < |later| + 1 ==> ([RetryDelay * Pow2(k)] + later)[j] == RetryDelay * Pow2(k + j)
  {
    forall j | 0 < j < |later| + 1 ensures ([RetryDelay * Pow2(k)] + later)[j] == RetryDelay * Pow2(k + j) {
      assert ([RetryDelay * Pow2(k)] + later)[j] == later[j - 1];
      assert k + 1 + (j - 1) == k + j;
    }
  }

  /** Attempt budget and backoff: at most three adapter calls, all with the
      provider's request, and the k-th sleep (from 0) lasts 2 * 2^k seconds. */
  lemma GenerationBudget(apiKey: string, provider: string, prompt: string, width: nat, height: nat,
                         negative: Option<string>, send: (Request, nat) -> Outcome)
    ensures var t := Generation(apiKey, provider, prompt, width, height, negative, send).1;
      CallCount(t) <= MaxRetries
      && (forall e :: e in t && e.Sent? ==>
            (AdapterFor(provider).Some? &&
             e.request == BuildRequest(AdapterFor(provider).value, prompt, width, height, negative)))
      && (forall j :: 0 <= j < |Sleeps(t)| ==> Sleeps(t)[j] == RetryDelay * Pow2(j))
  {
    if apiKey != "" && AdapterFor(provider).Some? {
      RetriesShape(BuildRequest(AdapterFor(provider).value, prompt, width, height, negative), send, 0);
    }
  }

  /** When attempt `k` is the first to succeed, its image is returned at once,
      after `k` failed calls each followed by a sleep. */
  lemma {:induction false} FirstSuccessWins(req: Request, send: (Request, nat) -> Outcome, i: nat, k: nat)
    requires i <= k < MaxRetries
    requires forall j :: i <= j < k ==> send(req, j).Failure?
    requires send(req, k).Success?
    ensures Retries(req, send, i).0 == Some(send(req, k).image)
    ensures CallCount(Retries(req, send, i).1) == k - i + 1
    ensures |Sleeps(Retries(req, send, i).1)| == k - i
    decreases k - i
  {
    if i < k {
      var rest := Retries(req, send, i + 1);
      var head := [Sent(req), Slept(RetryDelay * Pow2(i))];
      FirstSuccessWins(req, send, i + 1, k);
      CallCountAppend(head, rest.1);
      SleepsAppend(head, rest.1);
      assert CallCount(head) == 1 && Sleeps(head) == [RetryDelay * Pow2(i)];
    } else {
      assert CallCount([Sent(req)]) == 1;
      assert Sleeps([Sent(req)]) == [];
    }
  }

  /** Every attempt fails: `None`, three calls, and a sleep after each of
      them, the third included: 2, 4 and 8 seconds, 14 in all. */
  lemma AllAttemptsFail(req: Request, send: (Request, nat) -> Outcome)
    requires forall j :: 0 <= j < MaxRetries ==> send(req, j).Failure?
    ensures Retries(req, send, 0).0 == None
    ensures Retries(req, send, 0).1 == [Sent(req), Slept(2), Sent(req), Slept(4), Sent(req), Slept(8)]
    ensures Sleeps(Retries(req, send, 0).1) == [2, 4, 8] && Sum([2, 4, 8]) == 14
  {
    assert send(req, 0).Failure? && send(req, 1).Failure? && send(req, 2).Failure?;
    var t := [Sent(req), Slept(2), Sent(req), Slept(4), Sent(req), Slept(8)];
    assert Retries(req, send, 2).1 == t[4..];
    assert Retries(req, send, 1).1 == t[2..];
    assert Sleeps(t[5..]) == [8];
    assert Sleeps(t[4..]) == [8] by { assert t[4..][1..] == t[5..]; }
    assert Sleeps(t[3..]) == [4, 8] by { assert t[3..][1..] == t[4..]; }
    assert Sleeps(t[2..]) == [4, 8] by { assert t[2..][1..] == t[3..]; }
    assert Sleeps(t[1..]) == [2, 4, 8] by { assert t[1..][1..] == t[2..]; }
    assert Sleeps(t) == [2, 4, 8] by { assert t[1..] == t[1..]; }
  }

  // ---- the Gemini response ----

  /** `part["inlineData"]`: a MIME type and base64 data, either possibly absent. */
  datatype InlineData = InlineData(mimeType: Option<string>, data: Option<string>)

  /** A response part; text parts carry no inline data. */
  datatype Part = Part(inlineData: Option<InlineData>)

  /** A candidate's `content.parts`; a missing `content` or `parts` reads as no parts. */
  datatype Candidate = Candidate(parts: seq<Part>)

  /** How the scan treats one part: pass over it, take it as the image, or
      fail on it because `inlineData` has no `mimeType` (a `KeyError`). */
  datatype PartKind = Skip | ImagePart | NoMimeType

  function Classify(p: Part): PartKind
  {
    match p.inlineData
    case None => Skip
    case Some(d) =>
      match d.mimeType
      case None => NoMimeType
      case Some(m) => if "image/" <= m then ImagePart else Skip
  }

  /** Where the scan stops: an image part, a part that raises, or the end. */
  datatype Scan = Found(candidate: nat, part: nat) | Malformed(candidate: nat, part: nat) | NoImage

  /** Every part that comes before position (c, p) in candidate-then-part order is skipped. */
  ghost predicate SkippedBefore(cands: seq<Candidate>, c: nat, p: nat)
  {
    forall c', p' :: 0 <= c' < |cands| && 0 <= p' < |cands[c'].parts| && (c' < c || (c' == c && p' < p))
      ==> Classify(cands[c'].parts[p']) == Skip
  }

  /** The result of the nested scan from position (c, p) on: the first part,
      in candidate-then-part order, that is not skipped decides. */
  function ScanFrom(cands: seq<Candidate>, c: nat, p: nat): (r: Scan)
    requires SkippedBefore(cands, c, p)
    ensures r.Found? ==>
      (r.candidate < |cands| && r.part < |cands[r.candidate].parts|
       && Classify(cands[r.candidate].parts[r.part]) == ImagePart && SkippedBefore(cands, r.candidate, r.part))
    ensures r.Malformed? ==>
      (r.candidate < |cands| && r.part < |cands[r.candidate].parts|
       && Classify(cands[r.candidate].parts[r.part]) == NoMimeType && SkippedBefore(cands, r.candidate, r.part))
    ensures r.NoImage? ==> SkippedBefore(cands, |cands|, 0)
    decreases |cands| - c, if c < |cands| then |cands[c].parts| - p else 0
  {
    if c >= |cands| then NoImage
    else if p >= |cands[c].parts| then ScanFrom(cands, c + 1, 0)
    else
      match Classify(cands[c].parts[p])
      case Skip => ScanFrom(cands, c, p + 1)
      case ImagePart => Found(c, p)
      case NoMimeType => Malformed(c, p)
  }

  /** The nested `for` loops of `_call_gemini` over `candidates` and their
      `parts`, returning at the first image part or the first part that raises. */
  method ScanGeminiResponse(cands: seq<Candidate>) returns (r: Scan)
    ensures r == ScanFrom(cands, 0, 0)
  {
    var c := 0;
    while c < |cands|
      invariant 0 <= c <= |cands|
      invariant SkippedBefore(cands, c, 0)
      invariant ScanFrom(cands, 0, 0) == ScanFrom(cands, c, 0)
    {
      var parts := cands[c].parts;
      var p := 0;
      while p < |parts|
        invariant 0 <= p <= |parts|
        invariant SkippedBefore(cands, c, p)
        invariant ScanFrom(cands, 0, 0) == ScanFrom(cands, c, p)
      {
        var kind := Classify(parts[p]);
        if kind == ImagePart {
          return Found(c, p);
        } else if kind == NoMimeType {
          return Malformed(c, p);
        }
        p := p + 1;
      }
      c := c + 1;
    }
    return NoImage;
  }

  /** One `_call_gemini` attempt: a non-200 status, a part that raises, no
      image part, or data that does not decode are all failures. `decode`
      stands for base64 decoding followed by `Image.open`. */
  function GeminiOutcome(status: int, cands: seq<Candidate>, decode: string -> Option<Image>): (r: Outcome)
    ensures r.Success? <==>
      status == 200 && ScanFrom(cands, 0, 0).Found?
      && var s := ScanFrom(cands, 0, 0);
         var data := cands[s.candidate].parts[s.part].inlineData.value.data;
         data.Some? && decode(data.value).Some?
    ensures r.Success? ==>
      var s := ScanFrom(cands, 0, 0);
      r.image == decode(cands[s.candidate].parts[s.part].inlineData.value.data.value).value
  {
    if status != 200 then Failure
    else
      match ScanFrom(cands, 0, 0)
      case Found(c, p) =>
        var data := cands[c].parts[p].inlineData.value.data;
        if data.None? then Failure
        else (match decode(data.value) case Some(img) => Success(img) case None => Failure)
      case _ => Failure
  }

  // ---- save_image ----

  /** `"".join(c if c.isalnum() else "_" for c in prompt[:30])`. */
  function CleanPrompt(prompt: string): (r: string)
    ensures |r| == Min(|prompt|, 30)
    ensures forall i :: 0 <= i < |r| ==> r[i] == (if IsAlnum(prompt[i]) then prompt[i] else '_')
  {
    var head := Prefix(prompt, 30);
    seq(|head|, i requires 0 <= i < |head| => if IsAlnum(head[i]) then head[i] else '_')
  }

  /** The file name `save_image` writes: `<clean prompt>_<seconds>.png`. */
  function SavedFilename(prompt: string, timestamp: nat): string
  {
    CleanPrompt(prompt) + "_" + NatToString(timestamp) + ".png"
  }

  /** The saved name is the cleaned prefix, '_', the timestamp's digits and
      ".png"; every prefix character is alphanumeric or '_', and the timestamp
      can be read back from the name. */
  lemma SavedFilenameSpec(prompt: string, timestamp: nat)
    ensures var name := SavedFilename(prompt, timestamp);
      var n := |CleanPrompt(prompt)|;
      n == Min(|prompt|, 30)
      && (forall i :: 0 <= i < n ==> IsAlnum(name[i]) || name[i] == '_')
      && name[n] == '_'
      && name[|name| - 4..] == ".png"
      && ParseNat(name[n + 1..|name| - 4]) == Some(timestamp)
  {
    var name := SavedFilename(prompt, timestamp);
    var n := |CleanPrompt(prompt)|;
    assert name[n + 1..|name| - 4] == NatToString(timestamp);
    ParseNatToString(timestamp);
  }

  /** Saves of one prompt in different seconds get different names. */
  lemma SavedFilenameDistinct(prompt: string, t1: nat, t2: nat)
    requires t1 != t2
    ensures SavedFilename(prompt, t1) != SavedFilename(prompt, t2)
  {
    SavedFilenameSpec(prompt, t1);
    SavedFilenameSpec(prompt, t2);
  }

  /** The client. `apiKey` and `provider` are fixed at construction; `log`
      records every adapter call and every sleep in order. */
  class APIClient {
    const apiKey: string
    const provider: string
    const maxRetries: nat := MaxRetries
    const retryDelay: nat := RetryDelay
    ghost var log: seq<Event>

    /** `__init__`: an empty argument (`None` or `""`) falls back to the
        configured value, and the provider is lower-cased. */
    constructor (apiKey: Option<string>, provider: Option<string>, configuredKey: string, configuredProvider: string)
      ensures this.apiKey == if apiKey.Some? && apiKey.value != "" then apiKey.value else configuredKey
      ensures this.provider == Lower(if provider.Some? && provider.value != "" then provider.value else configuredProvider)
      ensures log == []
    {
      this.apiKey := if apiKey.Some? && apiKey.value != "" then apiKey.value else configuredKey;
      this.provider := Lower(if provider.Some? && provider.value != "" then provider.value else configuredProvider);
      log := [];
    }

    /** `generate_image(prompt, size, negative_prompt)`. */
    method GenerateImage(prompt: string, width: nat, height: nat, negative: Option<string>,
                         send: (Request, nat) -> Outcome) returns (image: Option<Image>)
      modifies this`log
      ensures image == Generation(apiKey, provider, prompt, width, height, negative, send).0
      ensures log == old(log) + Generation(apiKey, provider, prompt, width, height, negative, send).1
    {
      if apiKey == "" {
        return None;
      }
      // the request every pass sends, when the provider is known
      ghost var sent := if AdapterFor(provider).Some?
        then BuildRequest(AdapterFor(provider).value, prompt, width, height, negative)
        else OpenAIRequest([], []);
      GenerationWithKey(apiKey, provider, prompt, width, height, negative, send);
      var retryCount: nat := 0;
      while retryCount < maxRetries
        invariant retryCount <= maxRetries
        invariant AdapterFor(provider).None? ==> retryCount == 0 && log == old(log)
        invariant AdapterFor(provider).Some? ==>
          Retries(sent, send, 0).0 == Retries(sent, send, retryCount).0
          && old(log) + Retries(sent, send, 0).1 == log + Retries(sent, send, retryCount).1
      {
        var adapter := AdapterFor(provider);
        if adapter.None? {
          return None;
        }
        var req := BuildRequest(adapter.value, prompt, width, height, negative);
        ghost var before := log;
        log := log + [Sent(req)];
        var outcome := send(req, retryCount);
        if outcome.Success? {
          RetryPassSucceeds(old(log), before, req, send, retryCount);
          return Some(outcome.image);
        }
        retryCount := retryCount + 1;
        var waitTime := retryDelay * Pow2(retryCount - 1);
        log := log + [Slept(waitTime)];
        RetryPassFails(old(log), before, req, send, retryCount - 1);
      }
      return None;
    }
  }
}

=== FILE: db.dfy ===
/** `Database` (core/db.py): the `images` table as a sequence of rows in
    insertion order plus the AUTOINCREMENT counter, with the five operations
    the application uses. The SQL clauses are modelled by the functions
    below: `ORDER BY created_at DESC` by a stable sort, `LIMIT` by `Limit`,
    and `LIKE` by `Like`. */
module Db {
  import opened Wrappers
  import opened Text

  /** One row of `images`. `createdAt` is the insertion time in seconds; the
      stored text `%Y-%m-%d %H:%M:%S` sorts the same way. */
  datatype Record = Record(id: nat, prompt: string, filename: string, filepath: string, provider: string,
                           createdAt: nat, width: Option<int>, height: Option<int>, extraData: Option<string>)

  /** The default `limit` of `get_all_images` and `search_images`. */
  const DefaultLimit: int := 50

  /** Rows appear in insertion order, so their ids increase. */
  predicate IdsIncreasing(rows: seq<Record>)
  {
    forall i, j :: 0 <= i < j < |rows| ==> rows[i].id < rows[j].id
  }

  predicate HasId(rows: seq<Record>, id: nat)
  {
    exists i :: 0 <= i < |rows| && rows[i].id == id
  }

  /** `SELECT * FROM images WHERE id = ?`, first match. */
  function Lookup(rows: seq<Record>, id: nat): (r: Option<Record>)
    ensures r.Some? ==> r.value in rows && r.value.id == id
    ensures r.None? <==> !HasId(rows, id)
  {
    if rows == [] then None
    else if rows[0].id == id then Some(rows[0])
    else
      var r := Lookup(rows[1..], id);
      assert HasId(rows, id) ==> HasId(rows[1..], id) by {
        if HasId(rows, id) {
          var i :| 0 <= i < |rows| && rows[i].id == id;
          assert rows[1..][i - 1].id == id;
        }
      }
      assert HasId(rows[1..], id) ==> HasId(rows, id) by {
        if HasId(rows[1..], id) {
          var i :| 0 <= i < |rows[1..]| && rows[1..][i].id == id;
          assert rows[i + 1].id == id;
        }
      }
      r
  }

  /** `DELETE FROM images WHERE id = ?`: the rows that remain, in order. */
  function Without(rows: seq<Record>, id: nat): (r: seq<Record>)
    ensures forall x :: x in r <==> x in rows && x.id != id
    ensures |r| <= |rows|
    ensures !HasId(rows, id) ==> r == rows
  {
    if rows == [] then []
    else
      var rest := Without(rows[1..], id);
      TailHasId(rows, id);
      if rows[0].id == id then rest
      else
        assert [rows[0]] + rows[1..] == rows;
        [rows[0]] + rest
  }

  lemma TailHasId(rows: seq<Record>, id: nat)
    requires rows != []
    ensures HasId(rows, id) <==> rows[0].id == id || HasId(rows[1..], id)
  {
    if HasId(rows[1..], id) {
      var i :| 0 <= i < |rows[1..]| && rows[1..][i].id == id;
      assert rows[i + 1].id == id;
    }
    if HasId(rows, id) && rows[0].id != id {
      var i :| 0 <= i < |rows| && rows[i].id == id;
      assert rows[1..][i - 1].id == id;
    }
  }

  /** Every id in `rows` exceeds `b`. */
  predicate IdsAbove(rows: seq<Record>, b: int)
  {
    forall i :: 0 <= i < |rows| ==> b < rows[i].id
  }

  /** A row followed by rows with larger ids, themselves increasing, is increasing. */
  lemma ConsIncreasing(first: Record, rest: seq<Record>)
    requires IdsIncreasing(rest) && IdsAbove(rest, first.id)
    ensures IdsIncreasing([first] + rest)
  {
    var r := [first] + rest;
    forall i, j | 0 <= i < j < |r| ensures r[i].id < r[j].id {
      assert r[j] == rest[j - 1];
      if i > 0 {
        assert r[i] == rest[i - 1];
      }
    }
  }

  /** Deleting keeps the remaining rows in table order, so ids still increase
      and every lower bound on them still holds. */
  lemma {:induction false} WithoutKeepsOrder(rows: seq<Record>, id: nat, b: int)
    requires IdsIncreasing(rows) && IdsAbove(rows, b)
    ensures IdsIncreasing(Without(rows, id)) && IdsAbove(Without(rows, id), b)
  {
    if rows != [] {
      var t := rows[1..];
      assert IdsIncreasing(t) && IdsAbove(t, rows[0].id) && IdsAbove(t, b);
      WithoutKeepsOrder(t, id, rows[0].id);
      WithoutKeepsOrder(t, id, b);
      if rows[0].id != id {
        ConsIncreasing(rows[0], Without(t, id));
      }
    }
  }

  /** Deleting an id that is present in a table of distinct ids removes
      exactly one row. */
  lemma {:induction false} WithoutRemovesOne(rows: seq<Record>, id: nat)
    requires IdsIncreasing(rows)
    requires HasId(rows, id)
    ensures |Without(rows, id)| == |rows| - 1
  {
    assert IdsIncreasing(rows[1..]);
    if rows[0].id == id {
      forall k | 0 <= k < |rows[1..]| ensures rows[1..][k].id != id {
        assert rows[1..][k] == rows[k + 1];
      }
    } else {
      var i :| 0 <= i < |rows| && rows[i].id == id;
      assert rows[1..][i - 1].id == id;
      WithoutRemovesOne(rows[1..], id);
    }
  }

  /** `ORDER BY created_at DESC`. */
  predicate NewestFirst(s: seq<Record>)
  {
    forall i, j :: 0 <= i < j < |s| ==> s[i].createdAt >= s[j].createdAt
  }

  /** Places `x` before every row that is not newer than it. */
  function InsertByAge(x: Record, s: seq<Record>): (r: seq<Record>)
    requires NewestFirst(s)
    ensures NewestFirst(r)
    ensures multiset(r) == multiset(s) + multiset{x}
    ensures |r| == |s| + 1
    ensures r[0] == x || (s != [] && r[0] == s[0])
  {
    if s == [] then [x]
    else if s[0].createdAt <= x.createdAt then
      ConsNewestFirst(x, s);
      [x] + s
    else
      TailNewestFirst(s);
      var rest := InsertByAge(x, s[1..]);
      assert s[0].createdAt >= rest[0].createdAt by {
        if rest[0] != x {
          assert rest[0] == s[1];
        }
      }
      ConsNewestFirst(s[0], rest);
      ConsMultiset(s, rest, x);
      [s[0]] + rest
  }

  lemma ConsMultiset(s: seq<Record>, rest: seq<Record>, x: Record)
    requires s != [] && multiset(rest) == multiset(s[1..]) + multiset{x}
    ensures multiset([s[0]] + rest) == multiset(s) + multiset{x}
  {
    assert s == [s[0]] + s[1..];
  }

  lemma TailNewestFirst(s: seq<Record>)
    requires s != [] && NewestFirst(s)
    ensures NewestFirst(s[1..])
  {
    forall i, j | 0 <= i < j < |s| - 1 ensures s[1..][i].createdAt >= s[1..][j].createdAt {
      assert s[1..][i] == s[i + 1] && s[1..][j] == s[j + 1];
    }
  }

  /** A row no older than the head of a newest-first sequence can go in front. */
  lemma ConsNewestFirst(first: Record, rest: seq<Record>)
    requires NewestFirst(rest)
    requires rest != [] ==> first.createdAt >= rest[0].createdAt
    ensures NewestFirst([first] + rest)
  {
    var r := [first] + rest;
    forall i, j | 0 <= i < j < |r| ensures r[i].createdAt >= r[j].createdAt {
      assert r[j] == rest[j - 1];
      if i > 0 {
        assert r[i] == rest[i - 1];
      }
    }
  }

  /** The rows newest first; rows with the same time keep insertion order. */
  function NewestFirstOrder(s: seq<Record>): (r: seq<Record>)
    ensures NewestFirst(r)
    ensures multiset(r) == multiset(s)
    ensures |r| == |s|
  {
    if s == [] then []
    else
      assert s == [s[0]] + s[1..];
      InsertByAge(s[0], NewestFirstOrder(s[1..]))
  }

  /** `LIMIT ?`; SQLite reads a negative limit as no limit. */
  function Limit(s: seq<Record>, limit: int): (r: seq<Record>)
    ensures limit < 0 ==> r == s
    ensures limit >= 0 ==> |r| == Min(|s|, limit)
    ensures r == s[..|r|]
  {
    if limit < 0 || limit >= |s| then s else s[..limit]
  }

  function Min(a: int, b: int): int { if a < b then a else b }

  /** SQLite's `LIKE` without an ESCAPE clause: `%` matches any run of
      characters, `_` any one character, and letters match ignoring ASCII case. */
  function Like(s: string, pattern: string): (r: bool)
    ensures r && '%' !in pattern ==> |s| == |pattern|
    ensures pattern == [] ==> (r <==> s == [])
    decreases |s| + |pattern|
  {
    if pattern == [] then s == []
    else if pattern[0] == '%' then Like(s, pattern[1..]) || (s != [] && Like(s[1..], pattern))
    else s != [] && (pattern[0] == '_' || LowerChar(s[0]) == LowerChar(pattern[0])) && Like(s[1..], pattern[1..])
  }

  /** `s` begins with `t`, ignoring ASCII case. */
  predicate StartsWithIgnoringCase(s: string, t: string)
  {
    |t| <= |s| && forall i :: 0 <= i < |t| ==> LowerChar(s[i]) == LowerChar(t[i])
  }

  /** `t` occurs somewhere in `s`, ignoring ASCII case. */
  predicate ContainsIgnoringCase(s: string, t: string)
  {
    StartsWithIgnoringCase(s, t) || (s != [] && ContainsIgnoringCase(s[1..], t))
  }

  /** A term with no wildcard characters in it. */
  predicate Plain(t: string)
  {
    '%' !in t && '_' !in t
  }

  lemma {:induction false} LikeAnything(s: string)
    ensures Like(s, "%")
  {
    if s != [] {
      LikeAnything(s[1..]);
    }
  }

  lemma {:induction false} LikePrefix(s: string, t: string)
    requires Plain(t)
    ensures Like(s, t + "%") <==> StartsWithIgnoringCase(s, t)
    decreases |t|
  {
    if t == [] {
      assert t + "%" == "%";
      LikeAnything(s);
    } else {
      assert (t + "%")[1..] == t[1..] + "%";
      assert t[0] in t;
      if s != [] {
        LikePrefix(s[1..], t[1..]);
        assert StartsWithIgnoringCase(s, t) <==>
          LowerChar(s[0]) == LowerChar(t[0]) && StartsWithIgnoringCase(s[1..], t[1..]) by {
          if StartsWithIgnoringCase(s, t) {
            forall i | 0 <= i < |t[1..]| ensures LowerChar(s[1..][i]) == LowerChar(t[1..][i]) {
              assert s[1..][i] == s[i + 1] && t[1..][i] == t[i + 1];
            }
          }
          if LowerChar(s[0]) == LowerChar(t[0]) && StartsWithIgnoringCase(s[1..], t[1..]) {
            forall i | 0 <= i < |t| ensures LowerChar(s[i]) == LowerChar(t[i]) {
              if i > 0 {
                assert s[1..][i - 1] == s[i] && t[1..][i - 1] == t[i];
              }
            }
          }
        }
      }
    }
  }

  /** For a term without wildcards, `prompt LIKE '%term%'` is a
      case-insensitive substring test. */
  lemma {:induction false} LikeIsSubstring(s: string, t: string)
    requires Plain(t)
    ensures Like(s, "%" + t + "%") <==> ContainsIgnoringCase(s, t)
    decreases |s|
  {
    var p := "%" + t + "%";
    assert p[1..] == t + "%";
    LikePrefix(s, t);
    if s != [] {
      LikeIsSubstring(s[1..], t);
    }
  }

  /** `WHERE prompt LIKE '%term%'`, in table order. */
  function Matching(rows: seq<Record>, term: string): (r: seq<Record>)
    ensures forall x :: x in r <==> x in rows && Like(x.prompt, "%" + term + "%")
    ensures multiset(r) <= multiset(rows)
  {
    if rows == [] then []
    else
      var rest := Matching(rows[1..], term);
      assert rows == [rows[0]] + rows[1..];
      if Like(rows[0].prompt, "%" + term + "%") then [rows[0]] + rest else rest
  }

  /** Searching for the empty term matches every row. */
  lemma EmptyTermMatchesAll(rows: seq<Record>)
    ensures Matching(rows, "") == rows
  {
    forall x: Record ensures Like(x.prompt, "%" + "" + "%") {
      assert "%" + "" + "%" == "%%";
      assert Like(x.prompt, "%%") by {
        assert "%%"[1..] == "%";
        LikeAnything(x.prompt);
      }
    }
    MatchingAll(rows);
  }

  lemma {:induction false} MatchingAll(rows: seq<Record>)
    requires forall x: Record :: Like(x.prompt, "%%")
    ensures Matching(rows, "") == rows
  {
    if rows != [] {
      MatchingAll(rows[1..]);
      assert "%" + "" + "%" == "%%";
    }
  }

  /** A prefix of a newest-first sequence holds its newest rows: nothing
      after the prefix is newer than anything in it. */
  lemma PrefixHoldsNewest(s: seq<Record>, n: nat)
    requires NewestFirst(s) && n <= |s|
    ensures forall x, y :: x in s && x !in s[..n] && y in s[..n] ==> x.createdAt <= y.createdAt
  {
    forall x, y | x in s && x !in s[..n] && y in s[..n] ensures x.createdAt <= y.createdAt {
      var i :| 0 <= i < |s| && s[i] == x;
      var j :| 0 <= j < n && s[..n][j] == y;
      assert forall m :: 0 <= m < n ==> s[m] in s[..n];
      assert n <= i;
    }
  }

  /** The first `limit` rows of the newest-first ordering of `rows` are
      ordered, drawn from `rows`, and nothing left out is newer than
      anything returned. */
  lemma TopRows(rows: seq<Record>, limit: int)
    ensures var r := Limit(NewestFirstOrder(rows), limit);
      && NewestFirst(r)
      && multiset(r) <= multiset(rows)
      && (forall x, y :: x in rows && x !in r && y in r ==> x.createdAt <= y.createdAt)
  {
    var s := NewestFirstOrder(rows);
    var r := Limit(s, limit);
    assert r == s[..|r|];
    PrefixHoldsNewest(s, |r|);
    PrefixMultiset(s, |r|);
    forall x | x in rows ensures x in s {
      assert x in multiset(rows);
    }
  }

  lemma PrefixMultiset(s: seq<Record>, n: nat)
    requires n <= |s|
    ensures multiset(s[..n]) <= multiset(s)
  {
    assert s == s[..n] + s[n..];
  }

  /** The `images` table and its AUTOINCREMENT counter. */
  class Database {
    var rows: seq<Record>
    var nextId: nat

    /** Ids are positive, increase along the table, and stay below the
        counter, so a new id is larger than every id ever handed out. */
    ghost predicate Valid()
      reads this
    {
      nextId >= 1 && IdsIncreasing(rows)
      && forall i :: 0 <= i < |rows| ==> 1 <= rows[i].id < nextId
    }

    /** A freshly created, empty table. */
    constructor ()
      ensures Valid() && rows == [] && nextId == 1
    {
      rows := [];
      nextId := 1;
    }

    /** `add_image`. `provider` `None` stands for the omitted argument, which
        defaults to "unknown"; `now` is the insertion time. */
    method AddImage(prompt: string, filename: string, filepath: string, provider: Option<string>,
                    width: Option<int>, height: Option<int>, extraData: Option<string>, now: nat)
      returns (id: nat)
      requires Valid()
      modifies this
      ensures Valid()
      ensures id == old(nextId) && nextId == old(nextId) + 1
      ensures forall x :: x in old(rows) ==> x.id < id
      ensures rows == old(rows) + [Record(id, prompt, filename, filepath,
                                          if provider.Some? then provider.value else "unknown",
                                          now, width, height, extraData)]
      ensures Lookup(rows, id) == Some(rows[|rows| - 1])
    {
      id := nextId;
      var record := Record(id, prompt, filename, filepath,
                           if provider.Some? then provider.value else "unknown",
                           now, width, height, extraData);
      InsertThenGet(rows, record);
      AppendKeepsIdsIncreasing(rows, record);
      rows := rows + [record];
      nextId := nextId + 1;
    }

    /** `get_all_images(limit)`: at most `limit` rows, newest first, and none
        left out is newer than one returned. */
    method GetAllImages(limit: int := DefaultLimit) returns (result: seq<Record>)
      requires Valid()
      ensures result == Limit(NewestFirstOrder(rows), limit)
      ensures NewestFirst(result)
      ensures limit >= 0 ==> |result| == Min(|rows|, limit)
      ensures limit < 0 ==> |result| == |rows|
      ensures multiset(result) <= multiset(rows)
      ensures forall x, y :: x in rows && x !in result && y in result ==> x.createdAt <= y.createdAt
    {
      result := Limit(NewestFirstOrder(rows), limit);
      TopRows(rows, limit);
    }

    /** `search_images(term, limit)`: at most `limit` rows whose prompt is
        `LIKE '%term%'`, newest first, none left out newer than one returned. */
    method SearchImages(term: string, limit: int := DefaultLimit) returns (result: seq<Record>)
      requires Valid()
      ensures result == Limit(NewestFirstOrder(Matching(rows, term)), limit)
      ensures NewestFirst(result)
      ensures limit >= 0 ==> |result| <= limit
      ensures forall x :: x in result ==> x in rows && Like(x.prompt, "%" + term + "%")
      ensures forall x, y :: (x in rows && Like(x.prompt, "%" + term + "%") && x !in result && y in result
        ==> x.createdAt <= y.createdAt)
    {
      var matching := Matching(rows, term);
      result := Limit(NewestFirstOrder(matching), limit);
      TopRows(matching, limit);
      forall x | x in result ensures x in matching {
        assert x in multiset(result);
      }
    }

    /** `get_image(id)`: the row with that id, or `None`. */
    method GetImage(id: nat) returns (result: Option<Record>)
      requires Valid()
      ensures result.Some? ==> result.value in rows && result.value.id == id
      ensures result.None? <==> !HasId(rows, id)
    {
      result := Lookup(rows, id);
    }

    /** `delete_image(id)`: reports whether a row had that id; afterwards no
        row has it, every other row is still there, and the counter is kept
        so the id is never handed out again. */
    method DeleteImage(id: nat) returns (success: bool)
      requires Valid()
      modifies this
      ensures Valid()
      ensures success <==> HasId(old(rows), id)
      ensures rows == Without(old(rows), id) && nextId == old(nextId)
      ensures success ==> |rows| == |old(rows)| - 1
      ensures !success ==> rows == old(rows)
    {
      success := HasId(rows, id);
      WithoutKeepsOrder(rows, id, 0);
      if success {
        WithoutRemovesOne(rows, id);
      }
      rows := Without(rows, id);
    }
  }

  /** Appending a row whose id exceeds every id keeps ids increasing. */
  lemma AppendKeepsIdsIncreasing(rows: seq<Record>, record: Record)
    requires IdsIncreasing(rows)
    requires forall i :: 0 <= i < |rows| ==> rows[i].id < record.id
    ensures IdsIncreasing(rows + [record])
    ensures forall x :: x in rows ==> x.id < record.id
  {
    var r := rows + [record];
    forall i, j | 0 <= i < j < |r| ensures r[i].id < r[j].id {
      assert r[i] == rows[i];
    }
  }

  /** After an insert with a fresh id, looking that id up gives the new row. */
  lemma {:induction false} InsertThenGet(rows: seq<Record>, record: Record)
    requires forall x :: x in rows ==> x.id < record.id
    ensures Lookup(rows + [record], record.id) == Some(record)
  {
    if rows == [] {
      assert rows + [record] == [record];
    } else {
      assert (rows + [record])[1..] == rows[1..] + [record];
      InsertThenGet(rows[1..], record);
    }
  }

  /** A row inserted later than every existing row is what `get_all_images(1)` returns. */
  lemma {:induction false} NewestInsertListedFirst(rows: seq<Record>, record: Record)
    requires forall x :: x in rows ==> x.createdAt < record.createdAt
    ensures Limit(NewestFirstOrder(rows + [record]), 1) == [record]
  {
    var s := NewestFirstOrder(rows + [record]);
    assert record in multiset(s);
    var k :| 0 <= k < |s| && s[k] == record;
    assert s[0] in multiset(rows + [record]);
    assert s[0] in rows + [record];
    assert s[0] == record;
  }
}

=== FILE: edit_tab.dfy ===
/** The undo/redo history of the edit tab (ui/edit_tab.py): a list of image
    snapshots, a cursor into it and the image on display. `History` is the
    abstract state and the functions after it say what each handler does to
    it; `EditSession` is the tab itself, whose handlers update the three
    fields in place and are proved to follow those functions. */
module EditTab {
  import opened Wrappers
  import opened ImageEditor

  /** `edit_history`, `history_index` and `current_image`. */
  datatype History = History(snapshots: seq<Image>, index: int, current: Option<Image>)

  /** The state `__init__` leaves: no snapshots, index -1, no image. */
  const Initial: History := History([], -1, None)

  /** Before the first load the history is `Initial`; afterwards the index is
      a position in the history and the current image is the snapshot there. */
  predicate Consistent(h: History)
  {
    h == Initial || (0 <= h.index < |h.snapshots| && h.current == Some(h.snapshots[h.index]))
  }

  /** The reset `_on_load_image` performs. */
  function Loaded(img: Image): (r: History)
    ensures Consistent(r) && r.current == Some(img)
  {
    History([img], 0, Some(img))
  }

  /** `_add_to_history`: drop every snapshot after the cursor, append, move
      the cursor to the new last snapshot and display it. */
  function Pushed(h: History, img: Image): (r: History)
    requires Consistent(h)
    ensures Consistent(r) && r.current == Some(img)
  {
    var kept := if h.index < |h.snapshots| - 1 then h.snapshots[..h.index + 1] else h.snapshots;
    History(kept + [img], |kept + [img]| - 1, Some(img))
  }

  /** `_undo`: step back when the cursor is past the first snapshot. */
  function Undone(h: History): (r: History)
    requires Consistent(h)
    ensures Consistent(r) && r.snapshots == h.snapshots
  {
    if h.index > 0 then History(h.snapshots, h.index - 1, Some(h.snapshots[h.index - 1])) else h
  }

  /** `_redo`: step forward when the cursor is before the last snapshot. */
  function Redone(h: History): (r: History)
    requires Consistent(h)
    ensures Consistent(r) && r.snapshots == h.snapshots
  {
    if h.index < |h.snapshots| - 1 then History(h.snapshots, h.index + 1, Some(h.snapshots[h.index + 1])) else h
  }

  /** The Undo button's enable rule in `_update_button_states`. */
  predicate UndoEnabled(h: History)
  {
    h.index > 0
  }

  /** The Redo button's enable rule in `_update_button_states`. */
  predicate RedoEnabled(h: History)
  {
    h.index < |h.snapshots| - 1
  }

  lemma LoadedSpec(img: Image)
    ensures Consistent(Loaded(img))
    ensures Loaded(img).snapshots == [img] && Loaded(img).index == 0 && Loaded(img).current == Some(img)
    ensures !UndoEnabled(Loaded(img)) && !RedoEnabled(Loaded(img))
  {
  }

  /** Adding keeps `history[0..index]`, appends the new image after it, puts
      the cursor on it and displays it; nothing is left to redo. */
  lemma PushedSpec(h: History, img: Image)
    requires Consistent(h)
    ensures Consistent(Pushed(h, img))
    ensures Pushed(h, img).snapshots == h.snapshots[..h.index + 1] + [img]
    ensures Pushed(h, img).index == h.index + 1
    ensures Pushed(h, img).current == Some(img)
    ensures !RedoEnabled(Pushed(h, img))
    ensures h.current.Some? ==> UndoEnabled(Pushed(h, img))
  {
    if h == Initial {
      assert h.snapshots[..h.index + 1] == [];
    }
  }

  /** Undo and redo keep the state consistent and never touch the snapshots. */
  lemma UndoRedoPreserve(h: History)
    requires Consistent(h)
    ensures Consistent(Undone(h)) && Undone(h).snapshots == h.snapshots
    ensures Consistent(Redone(h)) && Redone(h).snapshots == h.snapshots
  {
  }

  /** The Undo button is enabled exactly when undoing changes something. */
  lemma UndoEnabledIffEffective(h: History)
    requires Consistent(h)
    ensures UndoEnabled(h) <==> Undone(h) != h
  {
  }

  /** The Redo button is enabled exactly when redoing changes something. */
  lemma RedoEnabledIffEffective(h: History)
    requires Consistent(h)
    ensures RedoEnabled(h) <==> Redone(h) != h
  {
  }

  /** Redo restores what undo left. */
  lemma RedoAfterUndo(h: History)
    requires Consistent(h) && UndoEnabled(h)
    ensures Redone(Undone(h)) == h
  {
  }

  /** Undo restores what redo left. */
  lemma UndoAfterRedo(h: History)
    requires Consistent(h) && RedoEnabled(h)
    ensures Undone(Redone(h)) == h
  {
  }

  /** Undoing a fresh edit brings back the image shown before it. */
  lemma UndoAfterPush(h: History, img: Image)
    requires Consistent(h) && h.current.Some?
    ensures Undone(Pushed(h, img)).index == h.index
    ensures Undone(Pushed(h, img)).current == h.current
  {
    PushedSpec(h, img);
  }

  /** Before any image is loaded, undo and redo do nothing and both buttons are off. */
  lemma BeforeLoad()
    ensures Consistent(Initial)
    ensures Undone(Initial) == Initial && Redone(Initial) == Initial
    ensures !UndoEnabled(Initial) && !RedoEnabled(Initial)
  {
  }

  /** The state after a load followed by the given edits. */
  function EditsAfterLoad(img: Image, edits: seq<Image>): (h: History)
    ensures Consistent(h)
    decreases |edits|
  {
    if edits == [] then Loaded(img)
    else
      var before := EditsAfterLoad(img, edits[..|edits| - 1]);
      PushedSpec(before, edits[|edits| - 1]);
      Pushed(before, edits[|edits| - 1])
  }

  /** Undo pressed `k` times. */
  function UndoTimes(h: History, k: nat): (r: History)
    requires Consistent(h)
    ensures Consistent(r)
    decreases k
  {
    if k == 0 then h else UndoRedoPreserve(h); UndoTimes(Undone(h), k - 1)
  }

  /** After loading an image and making edits with no undo in between, the
      history is the loaded image followed by the edits, cursor at the end. */
  lemma {:induction false} EditsAfterLoadSpec(img: Image, edits: seq<Image>)
    ensures EditsAfterLoad(img, edits).snapshots == [img] + edits
    ensures EditsAfterLoad(img, edits).index == |edits|
  {
    if edits != [] {
      var before := EditsAfterLoad(img, edits[..|edits| - 1]);
      EditsAfterLoadSpec(img, edits[..|edits| - 1]);
      PushedSpec(before, edits[|edits| - 1]);
      assert [img] + edits[..|edits| - 1] + [edits[|edits| - 1]] == [img] + edits;
    }
  }

  /** Undo pressed `k` times moves the cursor back `k` places, but never
      before the first snapshot, and displays the snapshot there. */
  lemma {:induction false} UndoTimesSpec(h: History, k: nat)
    requires Consistent(h) && h != Initial
    ensures UndoTimes(h, k).snapshots == h.snapshots
    ensures UndoTimes(h, k).index == Max(0, h.index - k)
    decreases k
  {
    if k > 0 {
      UndoRedoPreserve(h);
      UndoTimesSpec(Undone(h), k - 1);
    }
  }

  /** Undo after N edits shows the image from k edits earlier, down to the
      loaded original. */
  lemma UndoAfterEdits(img: Image, edits: seq<Image>, k: nat)
    ensures UndoTimes(EditsAfterLoad(img, edits), k).current
      == Some(([img] + edits)[Max(0, |edits| - k)])
  {
    EditsAfterLoadSpec(img, edits);
    UndoTimesSpec(EditsAfterLoad(img, edits), k);
  }

  /** The edit tab's image state. */
  class EditSession {
    var original: Option<Image>
    var current: Option<Image>
    var history: seq<Image>
    var index: int

    function State(): History
      reads this
    {
      History(history, index, current)
    }

    /** Consistent, and every snapshot is a well-formed image. */
    ghost predicate Valid()
      reads this
    {
      Consistent(State()) && forall i :: 0 <= i < |history| ==> history[i].Valid()
    }

    /** `__init__`: no image yet. */
    constructor ()
      ensures Valid() && State() == Initial && original == None
    {
      original := None;
      current := None;
      history := [];
      index := -1;
    }

    /** `_on_load_image`. `picked` is the image read from the chosen file, or
        `None` when the dialog was cancelled or the file could not be opened,
        in which case nothing changes. */
    method LoadImage(picked: Option<Image>)
      requires Valid()
      requires picked.Some? ==> picked.value.Valid()
      modifies this
      ensures Valid()
      ensures picked.None? ==> State() == old(State()) && original == old(original)
      ensures picked.Some? ==> State() == Loaded(picked.value) && original == picked
    {
      if picked.Some? {
        var image := picked.value;
        original := Some(image);
        current := Some(image);
        history := [image];
        index := 0;
      }
    }

    /** `_add_to_history`. */
    method AddToHistory(image: Image)
      requires Valid() && image.Valid()
      modifies this
      ensures Valid()
      ensures State() == Pushed(old(State()), image) && original == old(original)
    {
      if index < |history| - 1 {
        history := history[..index + 1];
      }
      history := history + [image];
      index := |history| - 1;
      current := Some(image);
    }

    /** `_undo`. */
    method Undo()
      requires Valid()
      modifies this
      ensures Valid()
      ensures State() == Undone(old(State())) && original == old(original)
    {
      if index > 0 {
        index := index - 1;
        current := Some(history[index]);
      }
    }

    /** `_redo`. */
    method Redo()
      requires Valid()
      modifies this
      ensures Valid()
      ensures State() == Redone(old(State())) && original == old(original)
    {
      if index < |history| - 1 {
        index := index + 1;
        current := Some(history[index]);
      }
    }

    /** `_apply_crop`, given the box already converted to image coordinates:
        the cropped image is pushed only when its size differs from the
        current one; otherwise the history is left as it was. */
    method ApplyCrop(box: Box)
      requires Valid()
      modifies this
      ensures Valid() && original == old(original)
      ensures old(current).None? ==> State() == old(State())
      ensures old(current).Some? ==>
        var cropped := Crop(old(current).value, box);
        State() == if cropped.width != old(current).value.width || cropped.height != old(current).value.height
                   then Pushed(old(State()), cropped) else old(State())
    {
      if current.Some? {
        var image := current.value;
        var cropped := Crop(image, box);
        if cropped.width != image.width || cropped.height != image.height {
          AddToHistory(cropped);
        }
      }
    }

    /** `_rotate_image(angle)`; `resample` stands for PIL's resampling rotation. */
    method RotateImage(angle: int, resample: (Image, int, bool) -> Image)
      requires Valid()
      requires forall img: Image :: img.Valid() ==> resample(img, angle, true).Valid()
      modifies this
      ensures Valid() && original == old(original)
      ensures old(current).None? ==> State() == old(State())
      ensures old(current).Some? ==>
        State() == Pushed(old(State()), Rotate(old(current).value, angle, true, resample))
    {
      if current.Some? {
        var rotated := Rotate(current.value, angle, true, resample);
        AddToHistory(rotated);
      }
    }

    /** `_flip_horizontal`. */
    method FlipHorizontal()
      requires Valid()
      modifies this
      ensures Valid() && original == old(original)
      ensures old(current).None? ==> State() == old(State())
      ensures old(current).Some? ==> State() == Pushed(old(State()), Mirror(old(current).value))
    {
      if current.Some? {
        AddToHistory(Mirror(current.value));
      }
    }

    /** `_flip_vertical`. */
    method FlipVertical()
      requires Valid()
      modifies this
      ensures Valid() && original == old(original)
      ensures old(current).None? ==> State() == old(State())
      ensures old(current).Some? ==> State() == Pushed(old(State()), Flip(old(current).value))
    {
      if current.Some? {
        AddToHistory(Flip(current.value));
      }
    }
  }

  /** A crop that is not pushed is one that would have changed nothing: the
      cropped image equals the displayed one. */
  lemma CropNotPushedLosesNothing(img: Image, box: Box)
    requires img.Valid()
    requires Crop(img, box).width == img.width && Crop(img, box).height == img.height
    ensures Crop(img, box) == img
  {
    CropSameSizeIsIdentity(img, box);
  }
}

=== FILE: generate_tab.dfy ===
/** The generate tab (ui/generate_tab.py): which sizes each provider offers,
    how the form is validated before a request is made, and the name the
    generated image is saved under. */
module GenerateTab {
  import opened Wrappers
  import opened Text
  import opened ImageEditor
  import ApiClient

  /** `DEFAULT_IMAGE_SIZE` from core/settings.py. */
  const DefaultImageSize: (nat, nat) := (512, 512)

  const OpenAISizeOptions: seq<string> := ["256x256", "512x512", "1024x1024"]

  const StabilitySizeOptions: seq<string> :=
    ["1024x1024", "1152x896", "1216x832", "1344x768", "1536x640", "768x1344", "832x1216", "896x1152"]

  /** Python's `str` of a pair of integers, e.g. "(512, 512)". */
  function PairString(p: (nat, nat)): (r: string)
    ensures r != [] && r[0] == '('
  {
    "(" + NatToString(p.0) + ", " + NatToString(p.1) + ")"
  }

  /** `_get_size_options_for_provider` as written: the fallback formats the
      whole `DEFAULT_IMAGE_SIZE` tuple on each side of the "x". */
  function SizeOptionsAsWritten(provider: string): (r: seq<string>)
    ensures |r| >= 1
    ensures provider != "openai" && provider != "stability" ==>
      r == [PairString(DefaultImageSize) + "x" + PairString(DefaultImageSize)]
  {
    if provider == "openai" then OpenAISizeOptions
    else if provider == "stability" then StabilitySizeOptions
    else [PairString(DefaultImageSize) + "x" + PairString(DefaultImageSize)]
  }

  /** `_get_size_options_for_provider` with the fallback formatting the width
      and the height of `DEFAULT_IMAGE_SIZE`, i.e. "512x512". */
  function SizeOptions(provider: string): (r: seq<string>)
    ensures |r| >= 1
  {
    if provider == "openai" then OpenAISizeOptions
    else if provider == "stability" then StabilitySizeOptions
    else [SizeString(DefaultImageSize.0, DefaultImageSize.1)]
  }

  const OpenAISizes: seq<(nat, nat)> := [(256, 256), (512, 512), (1024, 1024)]

  const StabilitySizes: seq<(nat, nat)> :=
    [(1024, 1024), (1152, 896), (1216, 832), (1344, 768), (1536, 640), (768, 1344), (832, 1216), (896, 1152)]

  /** The (width, height) pairs the options spell out. */
  function OfferedSizes(provider: string): seq<(nat, nat)>
  {
    if provider == "openai" then OpenAISizes
    else if provider == "stability" then StabilitySizes
    else [DefaultImageSize]
  }

  /** `width, height = map(int, size_str.split("x"))`: exactly two parts,
      each a decimal number. */
  function ParseSize(s: string): (r: Option<(nat, nat)>)
    ensures r.Some? ==> |SplitOn(s, 'x')| == 2
  {
    var parts := SplitOn(s, 'x');
    if |parts| == 2 && ParseNat(parts[0]).Some? && ParseNat(parts[1]).Some? then
      Some((ParseNat(parts[0]).value, ParseNat(parts[1]).value))
    else None
  }

  /** Formatting a size as "WxH" and parsing it back gives the size. */
  lemma {:induction false} ParseSizeString(width: nat, height: nat)
    ensures ParseSize(SizeString(width, height)) == Some((width, height))
  {
    var a := NatToString(width);
    var b := NatToString(height);
    assert 'x' !in a && 'x' !in b by {
      assert forall i :: 0 <= i < |a| ==> IsDigit(a[i]);
      assert forall i :: 0 <= i < |b| ==> IsDigit(b[i]);
    }
    assert SizeString(width, height) == a + ['x'] + b;
    SplitOnOnce(a, b, 'x');
    ParseNatToString(width);
    ParseNatToString(height);
  }

  /** A string that does not start with a digit is not a size. */
  lemma {:induction false} ParseSizeNeedsLeadingDigit(s: string)
    requires s != [] && !IsDigit(s[0])
    ensures ParseSize(s).None?
  {
    SplitOnFirstIsPrefix(s, 'x');
    var first := SplitOn(s, 'x')[0];
    if first != [] {
      assert first[0] == s[0];
    }
  }

  /** `str(n)` for a three-digit `n` with digits `a`, `b`, `c`. */
  lemma {:induction false} ThreeDigits(n: nat, a: nat, b: nat, c: nat)
    requires 1 <= a < 10 && b < 10 && c < 10 && n == 100 * a + 10 * b + c
    ensures NatToString(n) == [DigitChar(a), DigitChar(b), DigitChar(c)]
  {
    assert n / 10 == 10 * a + b && n % 10 == c;
    assert (n / 10) / 10 == a && (n / 10) % 10 == b;
    assert NatToString(n / 10) == NatToString(a) + [DigitChar(b)];
    assert NatToString(n) == NatToString(n / 10) + [DigitChar(c)];
  }

  /** `str(n)` for a four-digit `n` with digits `a`, `b`, `c`, `d`. */
  lemma {:induction false} FourDigits(n: nat, a: nat, b: nat, c: nat, d: nat)
    requires 1 <= a < 10 && b < 10 && c < 10 && d < 10 && n == 1000 * a + 100 * b + 10 * c + d
    ensures NatToString(n) == [DigitChar(a), DigitChar(b), DigitChar(c), DigitChar(d)]
  {
    assert n / 10 == 100 * a + 10 * b + c && n % 10 == d;
    ThreeDigits(n / 10, a, b, c);
  }

  /** The OpenAI options spell out their sizes. */
  lemma OpenAIOptionsSpellSizes()
    ensures forall i :: 0 <= i < 3 ==>
      OpenAISizeOptions[i] == SizeString(OfferedSizes("openai")[i].0, OfferedSizes("openai")[i].1)
  {
    ThreeDigits(256, 2, 5, 6);
    ThreeDigits(512, 5, 1, 2);
    FourDigits(1024, 1, 0, 2, 4);
    assert OpenAISizeOptions[0] == SizeString(256, 256);
    assert OpenAISizeOptions[1] == SizeString(512, 512);
    assert OpenAISizeOptions[2] == SizeString(1024, 1024);
  }

  // One lemma per Stability option, each spelling out one size.

  lemma StabilityOption0()
    ensures StabilitySizeOptions[0] == SizeString(StabilitySizes[0].0, StabilitySizes[0].1)
  {
    FourDigits(1024, 1, 0, 2, 4);
  }

  lemma StabilityOption1()
    ensures StabilitySizeOptions[1] == SizeString(StabilitySizes[1].0, StabilitySizes[1].1)
  {
    FourDigits(1152, 1, 1, 5, 2);
    ThreeDigits(896, 8, 9, 6);
  }

  lemma StabilityOption2()
    ensures StabilitySizeOptions[2] == SizeString(StabilitySizes[2].0, StabilitySizes[2].1)
  {
    FourDigits(1216, 1, 2, 1, 6);
    ThreeDigits(832, 8, 3, 2);
  }

  lemma StabilityOption3()
    ensures StabilitySizeOptions[3] == SizeString(StabilitySizes[3].0, StabilitySizes[3].1)
  {
    FourDigits(1344, 1, 3, 4, 4);
    ThreeDigits(768, 7, 6, 8);
  }

  lemma StabilityOption4()
    ensures StabilitySizeOptions[4] == SizeString(StabilitySizes[4].0, StabilitySizes[4].1)
  {
    FourDigits(1536, 1, 5, 3, 6);
    ThreeDigits(640, 6, 4, 0);
  }

  lemma StabilityOption5()
    ensures StabilitySizeOptions[5] == SizeString(StabilitySizes[5].0, StabilitySizes[5].1)
  {
    ThreeDigits(768, 7, 6, 8);
    FourDigits(1344, 1, 3, 4, 4);
  }

  lemma StabilityOption6()
    ensures StabilitySizeOptions[6] == SizeString(StabilitySizes[6].0, StabilitySizes[6].1)
  {
    ThreeDigits(832, 8, 3, 2);
    FourDigits(1216, 1, 2, 1, 6);
  }

  lemma StabilityOption7()
    ensures StabilitySizeOptions[7] == SizeString(StabilitySizes[7].0, StabilitySizes[7].1)
  {
    ThreeDigits(896, 8, 9, 6);
    FourDigits(1152, 1, 1, 5, 2);
  }

  /** The Stability options spell out their sizes. */
  lemma StabilityOptionsSpellSizes()
    ensures forall i :: 0 <= i < 8 ==>
      StabilitySizeOptions[i] == SizeString(StabilitySizes[i].0, StabilitySizes[i].1)
  {
    forall i | 0 <= i < 8 ensures StabilitySizeOptions[i] == SizeString(StabilitySizes[i].0, StabilitySizes[i].1) {
      if i == 0 { StabilityOption0(); }
      else if i == 1 { StabilityOption1(); }
      else if i == 2 { StabilityOption2(); }
      else if i == 3 { StabilityOption3(); }
      else if i == 4 { StabilityOption4(); }
      else if i == 5 { StabilityOption5(); }
      else if i == 6 { StabilityOption6(); }
      else { StabilityOption7(); }
    }
  }

  /** Every option of the corrected list spells out its offered size; the
      fallback list is ["512x512"]. */
  lemma SizeOptionsSpellSizes(provider: string)
    ensures |SizeOptions(provider)| == |OfferedSizes(provider)|
    ensures forall i :: 0 <= i < |SizeOptions(provider)| ==>
      SizeOptions(provider)[i] == SizeString(OfferedSizes(provider)[i].0, OfferedSizes(provider)[i].1)
    ensures provider != "openai" && provider != "stability" ==> SizeOptions(provider) == ["512x512"]
  {
    OpenAIOptionsSpellSizes();
    StabilityOptionsSpellSizes();
    assert SizeString(512, 512) == "512x512" by {
      ThreeDigits(512, 5, 1, 2);
    }
  }

  /** Every offered option parses to its size and formats back to itself,
      so the "WxH must be offered" check passes for every option the
      dropdown shows. */
  lemma {:induction false} SizeOptionsRoundTrip(provider: string, option: string)
    requires option in SizeOptions(provider)
    ensures ParseSize(option).Some?
    ensures SizeString(ParseSize(option).value.0, ParseSize(option).value.1) == option
  {
    SizeOptionsSpellSizes(provider);
    var i :| 0 <= i < |SizeOptions(provider)| && SizeOptions(provider)[i] == option;
    var wh := OfferedSizes(provider)[i];
    ParseSizeString(wh.0, wh.1);
  }

  /** As written, the only option offered to a provider other than "openai"
      and "stability" (among them "gemini") cannot be parsed, so generating
      always fails at the size parse. */
  lemma {:induction false} FallbackOptionAsWrittenUnparsable(provider: string)
    requires provider != "openai" && provider != "stability"
    ensures ParseSize(SizeOptionsAsWritten(provider)[0]).None?
  {
    var option := SizeOptionsAsWritten(provider)[0];
    assert option == PairString(DefaultImageSize) + "x" + PairString(DefaultImageSize);
    assert option[0] == '(';
    ParseSizeNeedsLeadingDigit(option);
  }

  /** Why no image comes out of the generate tab. */
  datatype Rejection =
    | EmptyPrompt                 // "Please enter a prompt"
    | UnparsableSize(option: string)  // `int()` fails on a part of the selection
    | SizeNotOffered(size: string)    // "Invalid size ..."
    | NoImage                     // "Failed to generate image. API returned None."

  /** What `_on_generate` hands to the worker thread. */
  datatype Job = Job(prompt: string, width: nat, height: nat, negative: Option<string>)

  /** `_on_generate` followed by the size check at the start of
      `_generate_image_thread`: the stripped prompt must be non-empty, the
      selected option must parse as "WxH", and "WxH" must be one of the
      options of the client's provider. A blank negative prompt becomes `None`. */
  function Prepare(promptText: string, negativeText: string, selected: string, provider: string): (r: Result<Job, Rejection>)
    ensures r == Err(EmptyPrompt) <==> AllSpace(promptText)
    ensures r.Ok? ==> && r.value.prompt == Strip(promptText) && r.value.prompt != []
                      && ParseSize(selected) == Some((r.value.width, r.value.height))
                      && SizeString(r.value.width, r.value.height) in SizeOptions(provider)
    ensures r.Ok? ==> (r.value.negative.None? <==> AllSpace(negativeText))
    ensures r.Ok? && r.value.negative.Some? ==> r.value.negative.value == Strip(negativeText)
  {
    StripEmptyIffAllSpace(promptText);
    StripEmptyIffAllSpace(negativeText);
    var prompt := Strip(promptText);
    if prompt == [] then Err(EmptyPrompt)
    else
      match ParseSize(selected)
      case None => Err(UnparsableSize(selected))
      case Some((width, height)) =>
        var negative := Strip(negativeText);
        if SizeString(width, height) !in SizeOptions(provider) then Err(SizeNotOffered(SizeString(width, height)))
        else Ok(Job(prompt, width, height, if negative == [] then None else Some(negative)))
  }

  /** Any option the provider offers is accepted with a non-blank prompt,
      and the job carries the size the option spells. */
  lemma {:induction false} PrepareAcceptsOfferedOption(promptText: string, negativeText: string, selected: string, provider: string)
    requires !AllSpace(promptText)
    requires selected in SizeOptions(provider)
    ensures var r := Prepare(promptText, negativeText, selected, provider);
      r.Ok? && SizeString(r.value.width, r.value.height) == selected
  {
    StripEmptyIffAllSpace(promptText);
    SizeOptionsRoundTrip(provider, selected);
  }

  /** The default selection, the first option, is accepted for every
      provider with a non-blank prompt. */
  lemma DefaultSelectionAccepted(promptText: string, negativeText: string, provider: string)
    requires !AllSpace(promptText)
    ensures Prepare(promptText, negativeText, SizeOptions(provider)[0], provider).Ok?
  {
    PrepareAcceptsOfferedOption(promptText, negativeText, SizeOptions(provider)[0], provider);
  }

  /** As written, a provider other than "openai" and "stability" only
      offers an option on which every generation stops at the size parse. */
  lemma {:induction false} FallbackSelectionAsWrittenRejected(promptText: string, negativeText: string, provider: string)
    requires provider != "openai" && provider != "stability"
    requires !AllSpace(promptText)
    ensures var option := SizeOptionsAsWritten(provider)[0];
      Prepare(promptText, negativeText, option, provider) == Err(UnparsableSize(option))
  {
    StripEmptyIffAllSpace(promptText);
    FallbackOptionAsWrittenUnparsable(provider);
  }

  /** The name the generated image is saved under: the prompt with spaces
      turned into underscores, cut to 50 characters, then "_WxH.png". */
  function OutputFilename(prompt: string, width: nat, height: nat): (r: string)
    ensures |r| == Min(|prompt|, 50) + |SizeString(width, height)| + 5
    ensures r[|r| - 4..] == ".png"
  {
    Prefix(ReplaceChar(prompt, ' ', '_'), 50) + "_" + SizeString(width, height) + ".png"
  }

  function Min(a: int, b: int): int { if a < b then a else b }

  /** The name starts with the first 50 characters of the prompt, spaces
      replaced, and ends with "_WxH.png". */
  lemma OutputFilenameSpec(prompt: string, width: nat, height: nat)
    ensures var r := OutputFilename(prompt, width, height);
      var k := Min(|prompt|, 50);
      && |r| == k + |SizeString(width, height)| + 5
      && (forall i :: 0 <= i < k ==> r[i] == (if prompt[i] == ' ' then '_' else prompt[i]))
      && ' ' !in r[..k]
      && r[k..] == "_" + SizeString(width, height) + ".png"
  {
    var r := OutputFilename(prompt, width, height);
    var k := Min(|prompt|, 50);
    var stem := Prefix(ReplaceChar(prompt, ' ', '_'), 50);
    assert r == stem + ("_" + SizeString(width, height) + ".png");
    assert r[..k] == stem;
  }

  /** Prompts that agree on their first 50 characters give the same name
      for the same size, so the later image overwrites the earlier one. */
  lemma OutputFilenameCollides(p1: string, p2: string, width: nat, height: nat)
    requires |p1| >= 50 && |p2| >= 50 && p1[..50] == p2[..50]
    ensures OutputFilename(p1, width, height) == OutputFilename(p2, width, height)
  {
    ReplaceThenPrefix(p1, ' ', '_', 50);
    ReplaceThenPrefix(p2, ' ', '_', 50);
  }

  /** The same prompt at two different sizes gives two different names. */
  lemma OutputFilenameSizeDistinct(prompt: string, w1: nat, h1: nat, w2: nat, h2: nat)
    ensures OutputFilename(prompt, w1, h1) == OutputFilename(prompt, w2, h2) ==> w1 == w2 && h1 == h2
  {
    OutputFilenameSpec(prompt, w1, h1);
    OutputFilenameSpec(prompt, w2, h2);
    ParseSizeString(w1, h1);
    ParseSizeString(w2, h2);
    var k := Min(|prompt|, 50);
    var s1 := "_" + SizeString(w1, h1) + ".png";
    var s2 := "_" + SizeString(w2, h2) + ".png";
    assert s1[1..|s1| - 4] == SizeString(w1, h1);
    assert s2[1..|s2| - 4] == SizeString(w2, h2);
  }

  /** `_generate_image_thread`: checks the size against the client's
      provider, asks the client for an image, and names the file. Saving
      the file is not part of this model. */
  method GenerateImage(client: ApiClient.APIClient, prompt: string, width: nat, height: nat,
                       negative: Option<string>, send: (ApiClient.Request, nat) -> ApiClient.Outcome)
    returns (r: Result<(Image, string), Rejection>)
    modifies client`log
    ensures SizeString(width, height) !in SizeOptions(client.provider) ==>
      r == Err(SizeNotOffered(SizeString(width, height))) && client.log == old(client.log)
    ensures SizeString(width, height) in SizeOptions(client.provider) ==>
      var g := ApiClient.Generation(client.apiKey, client.provider, prompt, width, height, negative, send);
      && client.log == old(client.log) + g.1
      && r == (if g.0.None? then Err(NoImage) else Ok((g.0.value, OutputFilename(prompt, width, height))))
  {
    var validSizes := SizeOptions(client.provider);
    var sizeStr := SizeString(width, height);
    if sizeStr !in validSizes {
      return Err(SizeNotOffered(sizeStr));
    }
    var image := client.GenerateImage(prompt, width, height, negative, send);
    if image.None? {
      return Err(NoImage);
    }
    r := Ok((image.value, OutputFilename(prompt, width, height)));
  }
}

=== FILE: image_editor.dfy ===
/** The right-angle raster geometry of `ImageEditor` (core/image_editor.py):
    crop, lossless rotation by 90, 180 and 270 degrees, and the two mirrors.
    Every operation is a total function from an image to a new image. */
module ImageEditor {

  /** A packed RGBA sample; the geometry never looks inside it. */
  type Pixel = bv32

  /** A raster image: `height` rows of `width` pixels; `rows[y][x]` is the
      pixel in column `x` of row `y`, row 0 at the top. */
  datatype Image = Image(width: nat, height: nat, rows: seq<seq<Pixel>>) {
    predicate Valid()
    {
      |rows| == height && forall y :: 0 <= y < |rows| ==> |rows[y]| == width
    }
  }

  /** A crop box `(left, top, right, bottom)`, half-open on the right and bottom. */
  datatype Box = Box(left: int, top: int, right: int, bottom: int)

  function Max(a: int, b: int): int { if a < b then b else a }

  function Min(a: int, b: int): int { if a < b then a else b }

  /** The box after the adjustment `crop_image` makes when an edge lies outside the image. */
  function Clamp(img: Image, b: Box): (c: Box)
    ensures 0 <= c.left && 0 <= c.top && c.right <= img.width && c.bottom <= img.height
    ensures c.left >= b.left && c.top >= b.top && c.right <= b.right && c.bottom <= b.bottom
    ensures 0 <= b.left && 0 <= b.top && b.right <= img.width && b.bottom <= img.height ==> c == b
  {
    if b.left < 0 || b.top < 0 || b.right > img.width || b.bottom > img.height then
      Box(Max(0, b.left), Max(0, b.top), Min(img.width, b.right), Min(img.height, b.bottom))
    else
      b
  }

  /** A box that `crop_image` rejects (after clamping). */
  predicate Degenerate(b: Box)
  {
    b.left >= b.right || b.top >= b.bottom
  }

  /** The pixels of `img` inside the box: PIL's `image.crop(box)`. */
  function SubImage(img: Image, b: Box): (r: Image)
    requires img.Valid()
    requires 0 <= b.left < b.right <= img.width && 0 <= b.top < b.bottom <= img.height
    ensures r.Valid() && r.width == b.right - b.left && r.height == b.bottom - b.top
    ensures forall y, x :: 0 <= y < r.height && 0 <= x < r.width ==>
      r.rows[y][x] == img.rows[b.top + y][b.left + x]
  {
    Image(b.right - b.left, b.bottom - b.top,
      seq(b.bottom - b.top, y requires 0 <= y < b.bottom - b.top => img.rows[b.top + y][b.left..b.right]))
  }

  /** `crop_image(image, box)`: clamp the box, return the input unchanged when
      the clamped box is empty, otherwise the half-open sub-image. */
  function Crop(img: Image, box: Box): (r: Image)
    requires img.Valid()
    ensures r.Valid()
  {
    var c := Clamp(img, box);
    if Degenerate(c) then img else SubImage(img, c)
  }

  /** `image.transpose(ROTATE_90)`: a quarter turn counter-clockwise. */
  function Rotate90(img: Image): (r: Image)
    requires img.Valid()
    ensures r.Valid() && r.width == img.height && r.height == img.width
  {
    Image(img.height, img.width,
      seq(img.width, y requires 0 <= y < img.width =>
        seq(img.height, x requires 0 <= x < img.height => img.rows[x][img.width - 1 - y])))
  }

  /** `image.transpose(ROTATE_180)`: a half turn. */
  function Rotate180(img: Image): (r: Image)
    requires img.Valid()
    ensures r.Valid() && r.width == img.width && r.height == img.height
  {
    Image(img.width, img.height,
      seq(img.height, y requires 0 <= y < img.height =>
        seq(img.width, x requires 0 <= x < img.width => img.rows[img.height - 1 - y][img.width - 1 - x])))
  }

  /** `image.transpose(ROTATE_270)`: a quarter turn clockwise. */
  function Rotate270(img: Image): (r: Image)
    requires img.Valid()
    ensures r.Valid() && r.width == img.height && r.height == img.width
  {
    Image(img.height, img.width,
      seq(img.width, y requires 0 <= y < img.width =>
        seq(img.height, x requires 0 <= x < img.height => img.rows[img.height - 1 - x][y])))
  }

  /** `rotate_image(image, angle, expand)`. The angle is first reduced modulo
      360; for a positive divisor Dafny's `%` agrees with Python's floor-mod,
      so -90 becomes 270. Any angle that does not reduce to 90, 180 or 270 goes
      to PIL's resampling `image.rotate`, which is outside this model and is
      passed in as `resample`. */
  function Rotate(img: Image, angle: int, expand: bool, resample: (Image, int, bool) -> Image): (r: Image)
    requires img.Valid()
    ensures angle % 360 == 90 || angle % 360 == 270 ==>
      r.Valid() && r.width == img.height && r.height == img.width
    ensures angle % 360 == 180 ==> r.Valid() && r.width == img.width && r.height == img.height
    ensures angle % 360 !in {90, 180, 270} ==> r == resample(img, angle, expand)
  {
    var n := angle % 360;
    if n == 90 then Rotate90(img)
    else if n == 180 then Rotate180(img)
    else if n == 270 then Rotate270(img)
    else resample(img, angle, expand)
  }

  /** `flip_image_horizontal` (`ImageOps.mirror`): left and right swap. */
  function Mirror(img: Image): (r: Image)
    requires img.Valid()
    ensures r.Valid() && r.width == img.width && r.height == img.height
  {
    Image(img.width, img.height,
      seq(img.height, y requires 0 <= y < img.height =>
        seq(img.width, x requires 0 <= x < img.width => img.rows[y][img.width - 1 - x])))
  }

  /** `flip_image_vertical` (`ImageOps.flip`): top and bottom swap. */
  function Flip(img: Image): (r: Image)
    requires img.Valid()
    ensures r.Valid() && r.width == img.width && r.height == img.height
  {
    Image(img.width, img.height,
      seq(img.height, y requires 0 <= y < img.height => img.rows[img.height - 1 - y]))
  }

  /** Two valid images with the same pixel at every position are equal. */
  lemma SamePixels(a: Image, b: Image)
    requires a.Valid() && b.Valid() && a.width == b.width && a.height == b.height
    requires forall y, x :: 0 <= y < a.height && 0 <= x < a.width ==> a.rows[y][x] == b.rows[y][x]
    ensures a == b
  {
    forall y | 0 <= y < a.height
      ensures a.rows[y] == b.rows[y]
    {
      assert forall x :: 0 <= x < a.width ==> a.rows[y][x] == b.rows[y][x];
    }
    assert a.rows == b.rows;
  }

  // ---- crop ----

  /** A box already inside the image and non-empty gives exactly the
      (right-left) x (bottom-top) block starting at (left, top). */
  lemma CropValidBox(img: Image, b: Box)
    requires img.Valid()
    requires 0 <= b.left < b.right <= img.width && 0 <= b.top < b.bottom <= img.height
    ensures Crop(img, b).width == b.right - b.left && Crop(img, b).height == b.bottom - b.top
    ensures forall y, x :: 0 <= y < b.bottom - b.top && 0 <= x < b.right - b.left ==>
      Crop(img, b).rows[y][x] == img.rows[b.top + y][b.left + x]
  {
  }

  /** A box already inside the image and not empty is used as given. */
  lemma CropInside(img: Image, b: Box)
    requires img.Valid()
    requires 0 <= b.left < b.right <= img.width && 0 <= b.top < b.bottom <= img.height
    ensures Crop(img, b) == SubImage(img, b)
  {
  }

  /** Out-of-range edges are clamped first: cropping with a box is cropping
      with its clamped box, whose edges lie inside the image. */
  lemma CropClamps(img: Image, b: Box)
    requires img.Valid()
    ensures Crop(img, b) == Crop(img, Box(Max(0, b.left), Max(0, b.top), Min(img.width, b.right), Min(img.height, b.bottom)))
  {
  }

  /** A box that is empty after clamping returns the input image itself. */
  lemma CropDegenerate(img: Image, b: Box)
    requires img.Valid()
    requires Max(0, b.left) >= Min(img.width, b.right) || Max(0, b.top) >= Min(img.height, b.bottom)
    ensures Crop(img, b) == img
  {
  }

  /** Cropping keeps the size only when it gives back the very same image:
      either the clamped box is empty or it is the whole image. */
  lemma {:induction false} CropSameSizeIsIdentity(img: Image, b: Box)
    requires img.Valid()
    ensures Crop(img, b).width == img.width && Crop(img, b).height == img.height
      <==> Crop(img, b) == img
  {
    var c := Clamp(img, b);
    var r := Crop(img, b);
    if !Degenerate(c) && r.width == img.width && r.height == img.height {
      assert c.left == 0 && c.right == img.width && c.top == 0 && c.bottom == img.height;
      SamePixels(r, img);
    }
  }

  /** A sub-image of a sub-image is one sub-image of the original. */
  lemma SubImageOfSubImage(img: Image, outer: Box, inner: Box)
    requires img.Valid()
    requires 0 <= outer.left < outer.right <= img.width && 0 <= outer.top < outer.bottom <= img.height
    requires 0 <= inner.left < inner.right <= outer.right - outer.left
    requires 0 <= inner.top < inner.bottom <= outer.bottom - outer.top
    ensures SubImage(SubImage(img, outer), inner)
      == SubImage(img, Box(outer.left + inner.left, outer.top + inner.top, outer.left + inner.right, outer.top + inner.bottom))
  {
    var whole := Box(outer.left + inner.left, outer.top + inner.top, outer.left + inner.right, outer.top + inner.bottom);
    var mid := SubImage(img, outer);
    var a := SubImage(mid, inner);
    var b := SubImage(img, whole);
    forall y | 0 <= y < a.height ensures a.rows[y] == b.rows[y] {
      SubImageOfSubImageRow(img, outer, inner, y);
    }
    assert a.rows == b.rows;
  }

  lemma SubImageOfSubImageRow(img: Image, outer: Box, inner: Box, y: int)
    requires img.Valid()
    requires 0 <= outer.left < outer.right <= img.width && 0 <= outer.top < outer.bottom <= img.height
    requires 0 <= inner.left < inner.right <= outer.right - outer.left
    requires 0 <= inner.top < inner.bottom <= outer.bottom - outer.top
    requires 0 <= y < inner.bottom - inner.top
    ensures SubImage(SubImage(img, outer), inner).rows[y]
      == SubImage(img, Box(outer.left + inner.left, outer.top + inner.top, outer.left + inner.right, outer.top + inner.bottom)).rows[y]
  {
    var whole := Box(outer.left + inner.left, outer.top + inner.top, outer.left + inner.right, outer.top + inner.bottom);
    SubImageRow(SubImage(img, outer), inner, y);
    SubImageRow(img, outer, inner.top + y);
    SubImageRow(img, whole, y);
    SliceOfSlice(img.rows[whole.top + y], outer.left, outer.right, inner.left, inner.right);
  }

  lemma SubImageRow(img: Image, b: Box, y: int)
    requires img.Valid()
    requires 0 <= b.left < b.right <= img.width && 0 <= b.top < b.bottom <= img.height
    requires 0 <= y < b.bottom - b.top
    ensures SubImage(img, b).rows[y] == img.rows[b.top + y][b.left..b.right]
  {
  }

  lemma SliceOfSlice<T>(s: seq<T>, i: int, j: int, k: int, l: int)
    requires 0 <= i <= j <= |s| && 0 <= k <= l <= j - i
    ensures s[i..j][k..l] == s[i + k..i + l]
  {
    forall m | 0 <= m < l - k ensures s[i..j][k..l][m] == s[i + k..i + l][m] {
      assert s[i..j][k..l][m] == s[i..j][k + m] == s[i + k + m];
    }
  }

  /** A crop of a crop is one crop of the original, with the inner box shifted
      by the outer box's top-left corner. */
  lemma {:induction false} CropOfCrop(img: Image, outer: Box, inner: Box)
    requires img.Valid()
    requires 0 <= outer.left < outer.right <= img.width && 0 <= outer.top < outer.bottom <= img.height
    requires 0 <= inner.left < inner.right <= outer.right - outer.left
    requires 0 <= inner.top < inner.bottom <= outer.bottom - outer.top
    ensures Crop(Crop(img, outer), inner)
      == Crop(img, Box(outer.left + inner.left, outer.top + inner.top, outer.left + inner.right, outer.top + inner.bottom))
  {
    var whole := Box(outer.left + inner.left, outer.top + inner.top, outer.left + inner.right, outer.top + inner.bottom);
    CropInside(img, outer);
    CropInside(SubImage(img, outer), inner);
    CropInside(img, whole);
    SubImageOfSubImage(img, outer, inner);
  }

  // ---- rotation ----

  /** Normalisation: the branch is chosen by `angle % 360`, so -90 acts as 270
      and 450 as 90. */
  lemma RotateNormalises(img: Image, angle: int, expand: bool, resample: (Image, int, bool) -> Image)
    requires img.Valid()
    ensures Rotate(img, -90, expand, resample) == Rotate270(img)
    ensures Rotate(img, 450, expand, resample) == Rotate90(img)
    ensures angle % 90 == 0 && angle % 360 != 0 ==>
      Rotate(img, angle, expand, resample) == Rotate(img, angle + 360, expand, resample)
  {
  }

  /** Normalised 90 and 270 swap width and height; 180 keeps them. */
  lemma RotateDimensions(img: Image, angle: int, expand: bool, resample: (Image, int, bool) -> Image)
    requires img.Valid()
    requires angle % 360 in {90, 180, 270}
    ensures Rotate(img, angle, expand, resample).Valid()
    ensures angle % 360 == 180 ==>
      Rotate(img, angle, expand, resample).width == img.width && Rotate(img, angle, expand, resample).height == img.height
    ensures angle % 360 != 180 ==>
      Rotate(img, angle, expand, resample).width == img.height && Rotate(img, angle, expand, resample).height == img.width
  {
  }

  lemma Rotate90Then270(img: Image)
    requires img.Valid()
    ensures Rotate270(Rotate90(img)) == img
  {
    SamePixels(Rotate270(Rotate90(img)), img);
  }

  lemma Rotate270Then90(img: Image)
    requires img.Valid()
    ensures Rotate90(Rotate270(img)) == img
  {
    SamePixels(Rotate90(Rotate270(img)), img);
  }

  lemma Rotate180Twice(img: Image)
    requires img.Valid()
    ensures Rotate180(Rotate180(img)) == img
  {
    SamePixels(Rotate180(Rotate180(img)), img);
  }

  /** Two quarter turns make a half turn. */
  lemma Rotate90Twice(img: Image)
    requires img.Valid()
    ensures Rotate90(Rotate90(img)) == Rotate180(img)
  {
    SamePixels(Rotate90(Rotate90(img)), Rotate180(img));
  }

  /** The edit tab's "rotate left" (-90) and "rotate right" (90) undo each
      other, and so does any right-angle rotation followed by its opposite. */
  lemma {:induction false} RotateLossless(img: Image, angle: int, expand: bool, resample: (Image, int, bool) -> Image)
    requires img.Valid()
    requires angle % 360 in {90, 180, 270}
    ensures Rotate(Rotate(img, angle, expand, resample), -angle, expand, resample) == img
  {
    var n := angle % 360;
    assert angle == (angle / 360) * 360 + n;
    assert -angle == (-(angle / 360) - 1) * 360 + (360 - n);
    assert (-angle) % 360 == 360 - n;
    if n == 90 {
      Rotate90Then270(img);
    } else if n == 180 {
      Rotate180Twice(img);
    } else {
      Rotate270Then90(img);
    }
  }

  // ---- mirrors ----

  lemma MirrorTwice(img: Image)
    requires img.Valid()
    ensures Mirror(Mirror(img)) == img
  {
    SamePixels(Mirror(Mirror(img)), img);
  }

  lemma FlipTwice(img: Image)
    requires img.Valid()
    ensures Flip(Flip(img)) == img
  {
    SamePixels(Flip(Flip(img)), img);
  }

  /** Mirroring both ways is a half turn. */
  lemma MirrorFlipIsRotate180(img: Image)
    requires img.Valid()
    ensures Mirror(Flip(img)) == Rotate180(img)
  {
    SamePixels(Mirror(Flip(img)), Rotate180(img));
  }

  // ---- directions ----

  /** A sequence read back to front. */
  function Reverse<T>(s: seq<T>): (r: seq<T>)
    ensures |r| == |s|
  {
    if s == [] then [] else Reverse(s[1..]) + [s[0]]
  }

  lemma {:induction false} ReverseIndex<T>(s: seq<T>, i: int)
    requires 0 <= i < |s|
    ensures Reverse(s)[i] == s[|s| - 1 - i]
  {
    if i < |s| - 1 {
      ReverseIndex(s[1..], i);
    }
  }

  /** Column `x` of the image, read top to bottom. */
  function Column(img: Image, x: int): (r: seq<Pixel>)
    requires img.Valid() && 0 <= x < img.width
    ensures |r| == img.height
  {
    seq(img.height, y requires 0 <= y < img.height => img.rows[y][x])
  }

  /** `ImageOps.mirror` turns every row around. */
  lemma MirrorReversesRows(img: Image)
    requires img.Valid()
    ensures forall y :: 0 <= y < img.height ==> Mirror(img).rows[y] == Reverse(img.rows[y])
  {
    forall y | 0 <= y < img.height ensures Mirror(img).rows[y] == Reverse(img.rows[y]) {
      forall x | 0 <= x < img.width ensures Mirror(img).rows[y][x] == Reverse(img.rows[y])[x] {
        ReverseIndex(img.rows[y], x);
      }
    }
  }

  /** `ImageOps.flip` turns the order of the rows around. */
  lemma FlipReversesRows(img: Image)
    requires img.Valid()
    ensures Flip(img).rows == Reverse(img.rows)
  {
    forall y | 0 <= y < img.height ensures Flip(img).rows[y] == Reverse(img.rows)[y] {
      ReverseIndex(img.rows, y);
    }
  }

  /** A counter-clockwise quarter turn: the right-hand column, read top to
      bottom, becomes the top row, and so on leftwards. */
  lemma Rotate90Columns(img: Image)
    requires img.Valid()
    ensures forall y :: 0 <= y < img.width ==> Rotate90(img).rows[y] == Column(img, img.width - 1 - y)
  {
  }

  /** A clockwise quarter turn: the left-hand column, read bottom to top,
      becomes the top row, and so on rightwards. */
  lemma Rotate270Columns(img: Image)
    requires img.Valid()
    ensures forall y :: 0 <= y < img.width ==> Rotate270(img).rows[y] == Reverse(Column(img, y))
  {
    forall y | 0 <= y < img.width ensures Rotate270(img).rows[y] == Reverse(Column(img, y)) {
      forall x | 0 <= x < img.height ensures Rotate270(img).rows[y][x] == Reverse(Column(img, y))[x] {
        ReverseIndex(Column(img, y), x);
      }
    }
  }
}

=== FILE: settings.dfy ===
/** `core/settings.py`: the JSON configuration file, read and written as a
    whole map, and the module-level settings mirrored from it. The file
    system is a `ConfigFile` value; whether a write succeeds is a parameter. */
module Settings {
  import opened Text

  /** The JSON values the application stores. */
  datatype Value = Null | Bool(b: bool) | Int(i: int) | Str(s: string)

  /** Python's `bool(value)`. */
  function Truthy(v: Value): bool
  {
    match v
    case Null => false
    case Bool(b) => b
    case Int(i) => i != 0
    case Str(s) => s != []
  }

  type Config = map<string, Value>

  /** `DEFAULT_CONFIG`. */
  const DefaultConfig: Config := map["dark_mode" := Bool(true), "api_provider" := Str("openai"), "api_key" := Str("")]

  /** `config.json`: absent, present but unreadable or not valid JSON, or
      holding a map. */
  datatype ConfigFile = Missing | Unreadable | Present(config: Config)

  /** `load_config`: the file's map if it can be read, otherwise the defaults. */
  function LoadedConfig(file: ConfigFile): (c: Config)
    ensures file.Present? ==> c == file.config
    ensures !file.Present? ==> c == DefaultConfig
  {
    if file.Present? then file.config else DefaultConfig
  }

  /** The file after `load_config`: a missing file is created holding the
      defaults when the write succeeds; otherwise the file is left alone. */
  function FileAfterLoad(file: ConfigFile, writable: bool): (f: ConfigFile)
    ensures f == file || (file.Missing? && f == Present(DefaultConfig))
  {
    if file.Missing? && writable then Present(DefaultConfig) else file
  }

  /** `get_config` on a loaded map: the value under the lower-cased key, or
      `default`. */
  function Lookup(config: Config, key: string, default: Value): (r: Value)
    ensures r == default || r in config.Values
    ensures Lower(key) !in config ==> r == default
  {
    if Lower(key) in config then config[Lower(key)] else default
  }

  /** The keys under which `save_setting` stores a boolean. */
  predicate IsDarkModeKey(jsonKey: string)
  {
    jsonKey == "dark_mode" || jsonKey == "darkmode"
  }

  /** The value `save_setting` stores under `key`. */
  function Stored(key: string, value: Value): (v: Value)
    ensures IsDarkModeKey(Lower(key)) ==> v.Bool? && v.b == Truthy(value)
    ensures !IsDarkModeKey(Lower(key)) ==> v == value
  {
    if IsDarkModeKey(Lower(key)) then Bool(Truthy(value)) else value
  }

  /** The map `save_setting` writes back. */
  function SavedConfig(config: Config, key: string, value: Value): Config
  {
    config[Lower(key) := Stored(key, value)]
  }

  /** The file after `save_setting`: the loaded map with one entry replaced,
      when the write succeeds; otherwise whatever `load_config` left. */
  function FileAfterSave(file: ConfigFile, key: string, value: Value, writable: bool): (f: ConfigFile)
    ensures writable ==> f.Present?
    ensures !writable ==> f == file
  {
    if writable then Present(SavedConfig(LoadedConfig(file), key, value)) else FileAfterLoad(file, writable)
  }

  /** A fresh installation reads the defaults: dark mode on, the OpenAI
      provider and an empty API key, under any spelling of those keys. */
  lemma {:induction false} DefaultsWhenMissing(key: string, default: Value)
    ensures Lower(key) == "dark_mode" ==> Lookup(LoadedConfig(Missing), key, default) == Bool(true)
    ensures Lower(key) == "api_provider" ==> Lookup(LoadedConfig(Missing), key, default) == Str("openai")
    ensures Lower(key) == "api_key" ==> Lookup(LoadedConfig(Missing), key, default) == Str("")
    ensures Lower(key) !in DefaultConfig ==> Lookup(LoadedConfig(Missing), key, default) == default
  {
  }

  /** Loading twice is loading once: the defaults written for a missing file
      read back as the defaults. */
  lemma LoadIsStable(file: ConfigFile, writable: bool)
    ensures LoadedConfig(FileAfterLoad(file, writable)) == LoadedConfig(file)
    ensures FileAfterLoad(FileAfterLoad(file, writable), writable) == FileAfterLoad(file, writable)
  {
  }

  /** Keys are case-insensitive: any spelling with the same lower case finds
      the same entry. */
  lemma {:induction false} KeysIgnoreCase(config: Config, k1: string, k2: string, default: Value)
    requires Lower(k1) == Lower(k2)
    ensures Lookup(config, k1, default) == Lookup(config, k2, default)
  {
  }

  /** A successful `save_setting` is read back by `get_config` under any
      spelling of the key, with dark mode coerced to a boolean. */
  lemma {:induction false} SaveThenGet(file: ConfigFile, key: string, key2: string, value: Value, default: Value)
    requires Lower(key2) == Lower(key)
    ensures var f := FileAfterSave(file, key, value, true);
      Lookup(LoadedConfig(f), key2, default) == Stored(key, value)
  {
  }

  /** `save_setting` leaves every other key as it was loaded. */
  lemma {:induction false} SaveKeepsOtherKeys(file: ConfigFile, key: string, other: string, value: Value, default: Value)
    requires Lower(other) != Lower(key)
    ensures var f := FileAfterSave(file, key, value, true);
      Lookup(LoadedConfig(f), other, default) == Lookup(LoadedConfig(file), other, default)
  {
  }

  /** Saving into an unreadable file replaces it with the defaults plus the
      one setting: its previous contents are lost. */
  lemma {:induction false} SaveOverUnreadableFile(key: string, value: Value)
    ensures FileAfterSave(Unreadable, key, value, true) == Present(DefaultConfig[Lower(key) := Stored(key, value)])
  {
  }

  /** Saving the same setting twice leaves the file as saving it once. */
  lemma {:induction false} SaveIdempotent(file: ConfigFile, key: string, value: Value)
    ensures var f := FileAfterSave(file, key, value, true);
      FileAfterSave(f, key, value, true) == f
  {
    var f := FileAfterSave(file, key, value, true);
    var c := SavedConfig(LoadedConfig(file), key, value);
    assert c[Lower(key) := Stored(key, value)] == c;
  }

  /** The configuration file together with the module-level settings that
      mirror it (`APP_CONFIG`, `DARK_MODE`, `API_PROVIDER`, `AI_API_KEY`). */
  class Store {
    var file: ConfigFile
    /** Loaded once at start-up and never refreshed. */
    const appConfig: Config
    var darkMode: Value
    var apiProvider: Value
    var apiKey: Value

    /** Module import: `APP_CONFIG = load_config()` and the three settings
        read from it with their defaults. */
    constructor (initial: ConfigFile, writable: bool)
      ensures file == FileAfterLoad(initial, writable)
      ensures appConfig == LoadedConfig(initial)
      ensures darkMode == (if "dark_mode" in appConfig then appConfig["dark_mode"] else Bool(true))
      ensures apiProvider == (if "api_provider" in appConfig then appConfig["api_provider"] else Str("openai"))
      ensures apiKey == (if "api_key" in appConfig then appConfig["api_key"] else Str(""))
    {
      var config := LoadedConfig(initial);
      file := FileAfterLoad(initial, writable);
      appConfig := config;
      darkMode := if "dark_mode" in config then config["dark_mode"] else Bool(true);
      apiProvider := if "api_provider" in config then config["api_provider"] else Str("openai");
      apiKey := if "api_key" in config then config["api_key"] else Str("");
    }

    /** `load_config`. */
    method LoadConfig(writable: bool) returns (config: Config)
      modifies this`file
      ensures config == LoadedConfig(old(file))
      ensures file == FileAfterLoad(old(file), writable)
    {
      config := LoadedConfig(file);
      file := FileAfterLoad(file, writable);
    }

    /** `get_config(key, default)`: reloads the file and looks the key up. */
    method GetConfig(key: string, default: Value, writable: bool) returns (v: Value)
      modifies this`file
      ensures v == Lookup(LoadedConfig(old(file)), key, default)
      ensures file == FileAfterLoad(old(file), writable)
    {
      var config := LoadConfig(writable);
      var jsonKey := Lower(key);
      if jsonKey in config {
        v := config[jsonKey];
      } else {
        v := default;
      }
    }

    /** `save_setting(key, value)`: reloads the file, stores the (coerced)
        value under the lower-cased key, mirrors it into the matching
        module-level setting whether or not the write then succeeds, and
        reports whether it did. */
    method SaveSetting(key: string, value: Value, writable: bool) returns (ok: bool)
      modifies this`file, this`darkMode, this`apiProvider, this`apiKey
      ensures ok == writable
      ensures file == FileAfterSave(old(file), key, value, writable)
      ensures apiKey == if Lower(key) == "api_key" then value else old(apiKey)
      ensures apiProvider == if Lower(key) == "api_provider" then value else old(apiProvider)
      ensures darkMode == if IsDarkModeKey(Lower(key)) then Bool(Truthy(value)) else old(darkMode)
    {
      var config := LoadConfig(writable);
      var jsonKey := Lower(key);
      var stored := value;
      if jsonKey == "dark_mode" || jsonKey == "darkmode" {
        stored := Bool(Truthy(value));
      }
      config := config[jsonKey := stored];
      if jsonKey == "api_key" {
        apiKey := stored;
      } else if jsonKey == "api_provider" {
        apiProvider := stored;
      } else if jsonKey == "dark_mode" || jsonKey == "darkmode" {
        darkMode := Bool(Truthy(stored));
      }
      ok := SaveConfig(config, writable);
    }

    /** `save_config(config)`: replaces the file's contents when the write
        succeeds and reports whether it did. */
    method SaveConfig(config: Config, writable: bool) returns (ok: bool)
      modifies this`file
      ensures ok == writable
      ensures file == if writable then Present(config) else old(file)
    {
      if writable {
        file := Present(config);
      }
      ok := writable;
    }
  }
}

=== FILE: text.dfy ===
/** String helpers shared by the modules: the parts of Python's `str` API that
    the application relies on (`lower`, `strip`, `isalnum`, `split`,
    `replace`, `int(...)` and `str(int)`), restricted as README.md states. */
module Text {
  import opened Wrappers

  /** `c.lower()` for ASCII letters; every other character is kept. */
  function LowerChar(c: char): char
  {
    if 'A' <= c <= 'Z' then (c as int + 32) as char else c
  }

  /** `s.lower()`, character by character. */
  function Lower(s: string): string
  {
    seq(|s|, i requires 0 <= i < |s| => LowerChar(s[i]))
  }

  lemma LowerIdempotent(s: string)
    ensures Lower(Lower(s)) == Lower(s)
  {
    assert forall i :: 0 <= i < |s| ==> LowerChar(LowerChar(s[i])) == LowerChar(s[i]);
  }

  /** `c.isalnum()` for ASCII letters and digits. */
  predicate IsAlnum(c: char)
  {
    'a' <= c <= 'z' || 'A' <= c <= 'Z' || '0' <= c <= '9'
  }

  predicate IsDigit(c: char)
  {
    '0' <= c <= '9'
  }

  /** `c.isspace()`: the characters Python's `str.strip()` removes. */
  predicate IsSpace(c: char)
  {
    var n := c as int;
    (0x09 <= n <= 0x0D) || (0x1C <= n <= 0x20) || n == 0x85 || n == 0xA0 || n == 0x1680
    || (0x2000 <= n <= 0x200A) || n == 0x2028 || n == 0x2029 || n == 0x202F || n == 0x205F
    || n == 0x3000
  }

  predicate AllSpace(s: string)
  {
    forall i :: 0 <= i < |s| ==> IsSpace(s[i])
  }

  /** Drops leading whitespace. */
  function TrimStart(s: string): (r: string)
    ensures |r| <= |s| && r == s[|s| - |r|..]
    ensures AllSpace(s[..|s| - |r|])
    ensures r != [] ==> !IsSpace(r[0])
    ensures r == [] <==> AllSpace(s)
  {
    if s != [] && IsSpace(s[0]) then
      var t := s[1..];
      var r := TrimStart(t);
      assert s[|s| - |r|..] == t[|t| - |r|..];
      forall i | 0 <= i < |s| - |r| ensures IsSpace(s[i]) {
        if i > 0 {
          assert s[i] == t[i - 1];
        }
      }
      assert AllSpace(t) ==> AllSpace(s) by {
        forall i | 1 <= i < |s| ensures s[i] == t[i - 1] { }
      }
      r
    else s
  }

  /** Drops trailing whitespace. */
  function TrimEnd(s: string): (r: string)
    ensures |r| <= |s| && r == s[..|r|]
    ensures AllSpace(s[|r|..])
    ensures r != [] ==> !IsSpace(r[|r| - 1])
    ensures r == [] <==> AllSpace(s)
  {
    if s != [] && IsSpace(s[|s| - 1]) then
      assert forall i :: 0 <= i < |s| - 1 ==> s[i] == s[..|s| - 1][i];
      TrimEnd(s[..|s| - 1])
    else s
  }

  /** `s.strip()`. */
  function Strip(s: string): string
  {
    TrimEnd(TrimStart(s))
  }

  /** `s.strip()` is empty exactly when `s` is empty or whitespace only. */
  lemma StripEmptyIffAllSpace(s: string)
    ensures Strip(s) == [] <==> AllSpace(s)
  {
  }

  /** `s[:n]` for a non-negative `n`. */
  function Prefix(s: string, n: nat): (r: string)
    ensures |r| == if |s| < n then |s| else n
  {
    if |s| <= n then s else s[..n]
  }

  /** `s.replace(a, b)` for one-character `a` and `b`. */
  function ReplaceChar(s: string, a: char, b: char): string
  {
    seq(|s|, i requires 0 <= i < |s| => if s[i] == a then b else s[i])
  }

  /** Replacing then truncating is truncating then replacing. */
  lemma ReplaceThenPrefix(s: string, a: char, b: char, n: nat)
    ensures Prefix(ReplaceChar(s, a, b), n) == ReplaceChar(Prefix(s, n), a, b)
  {
  }

  /** The decimal digit for `d`. */
  function DigitChar(d: nat): char
    requires d < 10
  {
    ('0' as int + d) as char
  }

  function DigitValue(c: char): nat
    requires IsDigit(c)
  {
    c as int - '0' as int
  }

  /** `str(n)` for a non-negative integer. */
  function NatToString(n: nat): (r: string)
    ensures r != [] && forall i :: 0 <= i < |r| ==> IsDigit(r[i])
    ensures r[0] == '0' ==> n == 0
  {
    if n < 10 then [DigitChar(n)] else NatToString(n / 10) + [DigitChar(n % 10)]
  }

  predicate AllDigits(s: string)
  {
    forall i :: 0 <= i < |s| ==> IsDigit(s[i])
  }

  /** The value of a string of decimal digits. */
  function DigitsValue(s: string): nat
    requires AllDigits(s)
  {
    if s == [] then 0 else DigitsValue(s[..|s| - 1]) * 10 + DigitValue(s[|s| - 1])
  }

  /** `int(s)` for strings made only of decimal digits; anything else, the
      empty string included, raises, modelled as `None`. */
  function ParseNat(s: string): Option<nat>
  {
    if s != [] && AllDigits(s) then Some(DigitsValue(s)) else None
  }

  /** `int(str(n)) == n`. */
  lemma {:induction false} ParseNatToString(n: nat)
    ensures ParseNat(NatToString(n)) == Some(n)
  {
    var s := NatToString(n);
    if n < 10 {
      assert s == [DigitChar(n)] && s[..|s| - 1] == [];
      assert DigitsValue(s) == DigitsValue([]) * 10 + DigitValue(DigitChar(n));
    } else {
      ParseNatToString(n / 10);
      assert s[..|s| - 1] == NatToString(n / 10);
      assert DigitValue(DigitChar(n % 10)) == n % 10;
      assert n == (n / 10) * 10 + n % 10;
    }
  }

  /** `str(int(s)) == s` when `s` is a digit string without a leading zero. */
  lemma {:induction false} NatToStringOfParse(s: string)
    requires s != [] && AllDigits(s) && (s[0] == '0' ==> |s| == 1)
    ensures NatToString(DigitsValue(s)) == s
  {
    var init := s[..|s| - 1];
    var last := s[|s| - 1];
    if init != [] {
      assert init[0] == s[0];
      NatToStringOfParse(init);
      DigitsValuePositive(init);
      var v := DigitsValue(init);
      assert DigitsValue(s) == v * 10 + DigitValue(last);
      TenfoldPlusDigit(v, DigitValue(last));
      assert DigitChar(DigitValue(last)) == last;
      assert s == init + [last];
    }
  }

  lemma TenfoldPlusDigit(v: nat, d: nat)
    requires d < 10
    ensures (v * 10 + d) / 10 == v && (v * 10 + d) % 10 == d
  {
  }

  lemma {:induction false} DigitsValuePositive(s: string)
    requires s != [] && AllDigits(s) && s[0] != '0'
    ensures DigitsValue(s) > 0
  {
    if |s| > 1 {
      DigitsValuePositive(s[..|s| - 1]);
    }
  }

  /** `s.split(c)`: the pieces between occurrences of `c`, always at least one. */
  function SplitOn(s: string, c: char): (r: seq<string>)
    ensures |r| >= 1
  {
    if s == [] then [[]]
    else
      var rest := SplitOn(s[1..], c);
      if s[0] == c then [[]] + rest else [[s[0]] + rest[0]] + rest[1..]
  }

  /** Splitting a text without the separator yields the text itself. */
  lemma {:induction false} SplitOnAbsent(s: string, c: char)
    requires c !in s
    ensures SplitOn(s, c) == [s]
  {
    if s != [] {
      SplitOnAbsent(s[1..], c);
      assert [s[0]] + s[1..] == s;
    }
  }

  /** Splitting `a + c + b` on `c` yields exactly `[a, b]` when neither half holds `c`. */
  lemma {:induction false} SplitOnOnce(a: string, b: string, c: char)
    requires c !in a && c !in b
    ensures SplitOn(a + [c] + b, c) == [a, b]
  {
    if a == [] {
      assert (a + [c] + b)[1..] == b;
      SplitOnAbsent(b, c);
    } else {
      assert (a + [c] + b)[1..] == a[1..] + [c] + b;
      SplitOnOnce(a[1..], b, c);
      assert [a[0]] + a[1..] == a;
    }
  }

  /** The first piece of a split is a prefix of the text. */
  lemma {:induction false} SplitOnFirstIsPrefix(s: string, c: char)
    ensures |SplitOn(s, c)[0]| <= |s| && SplitOn(s, c)[0] == s[..|SplitOn(s, c)[0]|]
  {
    if s != [] {
      SplitOnFirstIsPrefix(s[1..], c);
    }
  }

  /** `f"{w}x{h}"`, the size spelling used in requests, options and file names. */
  function SizeString(width: nat, height: nat): string
  {
    NatToString(width) + "x" + NatToString(height)
  }
}

=== FILE: wrappers.dfy ===
/** Option and Result, the two failure-carrying datatypes the model uses for
    Python's `None` results and for raised errors. */
module Wrappers {

  datatype Option<+T> = None | Some(value: T)

  datatype Result<+T, +E> = Ok(value: T) | Err(error: E)
}
